=== FILE: README.md ===
# Robotiq gripper client — a Dafny model

This project models the client that drives a Robotiq two-finger gripper over a
line-oriented ASCII protocol on TCP (`Gripper_Interface.py`). It covers:

- the two command frames, `SET <NAME> <int>\n` and `GET <NAME>\n`;
- reading one response line out of a stream of `recv` chunks;
- parsing a GET reply;
- the Disconnected/Connected lifecycle of the socket;
- the `reset` and `activate` state machine, including its 10-second deadline;
- `move` with its `grip`, `release` and `get_pos` wrappers;
- the auto-initialisation that the constructor performs.

The device is a script rather than a socket. A `World` holds a connection flag,
every frame the client has written so far, and the `recv` results that are still
to come. Each `recv` result is a chunk of bytes, where an empty chunk means the
peer closed the stream, or a socket timeout. When the script runs out, further
reads behave as a socket timeout, which is what a silent device causes.

Every operation returns a `Run`: the world afterwards together with a `Result`.
A Python exception becomes a `Failure` and keeps the side effects that happened
before it. The activation deadline reads a clock `now: nat -> int`. Its value is
the `time.time()` sample of the STA poll, in milliseconds. Sample 0 is the start
time and sample `k` is taken after the `k`-th unfinished poll.

Modules, one per layer:

- `Results`: `Option`, `Result` and one `Error` per exception the client raises.
- `Ascii`: ASCII encoding and decoding, `str.upper`, `str.strip`, `str.split`.
- `Numerals`: how `f"{int(val)}"` formats a value and how `int(token)` parses one.
- `Frames`: the SET and GET frames, how the device reads them, and the client's parse of a GET reply.
- `Transport`: `connect`, `disconnect`, `_send_command`, `_read_response`.
- `Protocol`: `SET` and `GET`, and the scripted device (`Replies`) that answers GETs with given values.
- `Activation`: `reset` and `activate`.
- `Motion`: `move`, `grip`, `release`, `get_pos`.
- `Startup`: `__init__`.
- `ConnectAsWritten`: `connect` as the source writes it. This is the basis of the finding below.

The loops of `reset`, `activate` and `move` are specified in two ways:

- Forward: against a device that answers with given values, the result is exactly
  the listed frames and the final value (`...Scripted`, `...TimesOut`).
- Backward: whatever values the device reports, each in a well-formed reply that
  arrives in one recv, the loop ends only in the ways the source allows (`...Exit`).

## Model

| member | source | states |
|---|---|---|
| Numerals.Decimal | Gripper_Interface.py:112 | The formatted integer is non-empty. It starts with a minus sign exactly when the value is negative, and the rest is digits. There is no leading zero: a non-negative value of more than one digit does not start with `0`, and the digit after a minus sign is never `0`. |
| Numerals.ParseInt | Gripper_Interface.py:135 | `int(token)` succeeds exactly on an optional sign followed by at least one decimal digit. |
| Numerals.ParseDecimal | Gripper_Interface.py:112-135 | Round trip: parsing the decimal text that SET writes gives back the value. |
| Numerals.DecimalInjective | Gripper_Interface.py:112 | Different values give different SET value texts. |
| Ascii.Upper | Gripper_Interface.py:112 | Upper-casing keeps the length and leaves no lower-case ASCII letter. It shifts each lower-case letter by 32 and keeps every other character. |
| Ascii.UpperKeepsShape | Gripper_Interface.py:112 | Upper-casing keeps a name ASCII, whitespace-free and a word exactly when it was before, and applying it twice is the same as once. |
| Ascii.DecodeEncode | Gripper_Interface.py:83-100 | Round trip: ASCII-decoding the bytes of an ASCII-encoded string gives back the string. |
| Ascii.Decode | Gripper_Interface.py:100 | Decoding succeeds exactly when every byte is below 128, and each character has the value of its byte. |
| Ascii.Strip | Gripper_Interface.py:100 | The stripped line is a slice of the input with only whitespace around it. It neither starts nor ends with whitespace. |
| Ascii.StripClean | Gripper_Interface.py:100 | A line with no whitespace at either end is left unchanged. |
| Ascii.Tokens | Gripper_Interface.py:129 | Every item of the split is a non-empty run of non-whitespace. |
| Ascii.TokensOfJoin | Gripper_Interface.py:129 | Round trip: splitting words that were joined by single spaces gives back the words. |
| Ascii.TokensOfSpread | Gripper_Interface.py:129 | Splitting any words laid out with any whitespace gives back exactly those words. The whitespace may be tabs or runs of blanks, must separate adjacent words, and may be absent at the ends. |
| Ascii.SpreadOfTokens | Gripper_Interface.py:129 | Conversely, every text is its split laid out with such whitespace. Splitting drops only whitespace, and it neither cuts nor merges a word. With `Ascii.TokensOfSpread` this fixes the count and the contents of the split for every input. |
| Frames.SetFrame | Gripper_Interface.py:112 | The SET frame text. Its own definition has no contract; what the device reads from it is stated by `Frames.SetFrameParses`, `Frames.FramesAscii` and `Frames.FramesAreOneLine`. |
| Frames.GetFrame | Gripper_Interface.py:125 | The GET frame text. Its own definition has no contract; what the device reads from it is stated by `Frames.GetFrameParses`, `Frames.FramesAscii` and `Frames.FramesAreOneLine`. |
| Frames.SetFrameParses | Gripper_Interface.py:112 | The device reads a SET frame as `SET` of the upper-cased name and exactly the given value. |
| Frames.GetFrameParses | Gripper_Interface.py:125 | The device reads a GET frame as `GET` of the upper-cased name. |
| Frames.FramesAscii | Gripper_Interface.py:83 | A frame is ASCII exactly when the parameter name is. So only a non-ASCII name makes `encode('ascii')` fail. |
| Frames.FramesAreOneLine | Gripper_Interface.py:112-125 | Every frame ends in a newline and holds no other newline, so one frame is one protocol line. |
| Frames.ParseReply | Gripper_Interface.py:129-135 | A reply is malformed exactly when it has fewer than two tokens. It is not an integer exactly when there are two or more tokens and the second is not an integer literal. On success the value is what the second token reads as. |
| Frames.ReplyValue | Gripper_Interface.py:129-135 | A reply `<tag> <value> ...` yields the value, and later tokens are ignored. |
| Frames.ReplyValueSpaced | Gripper_Interface.py:129-135 | The same for a reply laid out with any whitespace between, before and after its tokens. |
| Frames.ShortReplyMalformed | Gripper_Interface.py:132-133 | An empty reply, or one of a single token, is malformed. |
| Transport.Connect | Gripper_Interface.py:55-69 | Connecting while connected changes nothing. Otherwise only an accepted attempt connects. Refusal and timeout give `ConnectFailed`, and any other socket error gives `ConnectOsError`. After any failure the client is Disconnected. |
| Transport.Disconnect | Gripper_Interface.py:71-77 | Afterwards the client is Disconnected, and nothing is sent or consumed. |
| Transport.ConnectDisconnectIdempotent | Gripper_Interface.py:59-77 | `disconnect` twice is `disconnect` once. A `connect` after a successful one is a no-op, whatever the next attempt would do. |
| Transport.SendCommand | Gripper_Interface.py:79-84 | A send succeeds exactly when the client is connected and the frame is ASCII, and then it appends exactly that frame. A send while Disconnected raises the not-connected error. A failed send changes nothing. |
| Transport.ReadResponse | Gripper_Interface.py:86-102 | A read only consumes recv results and never sends. A successful read consumes at least one. A read while Disconnected raises the not-connected error. |
| Transport.ReadLineSpec | Gripper_Interface.py:91-100 | Newline-free chunks followed by a chunk holding a newline: the result is the decoded, stripped text before that newline. The bytes after the newline are dropped, and the next read starts at the following recv result. |
| Transport.ReadOneChunk | Gripper_Interface.py:94-100 | A chunk that holds a newline completes the read alone. |
| Transport.EncodedLine | Gripper_Interface.py:99-100 | An ASCII line sent with its newline reads back as the stripped line. |
| Transport.ReadLineLost | Gripper_Interface.py:95-96 | An empty chunk before any newline raises the connection-lost error, after consuming it. |
| Transport.ReadLineTimedOut | Gripper_Interface.py:101-102 | A socket timeout before any newline, or a device that stays silent, raises the read timeout. |
| Protocol.Set | Gripper_Interface.py:104-113 | SET succeeds exactly when the client is connected and the name is ASCII, and then it appends exactly the SET frame. A failed SET changes nothing. It never reads. |
| Protocol.Get | Gripper_Interface.py:115-135 | GET writes its frame exactly when the client is connected and the name is ASCII. A successful GET sent exactly that frame and consumed a reply. While Disconnected it raises the not-connected error. |
| Protocol.GetReadsLine | Gripper_Interface.py:125-135 | A GET answered by one ASCII line returns the parse of the stripped line. |
| Protocol.GetAnswered | Gripper_Interface.py:125-135 | A GET answered by a reply that carries `v` sends one frame, consumes that reply and returns `v`. |
| Protocol.GetUnanswered | Gripper_Interface.py:126-127 | A GET to a silent device sends its frame and raises the read timeout. |
| Activation.Reset | Gripper_Interface.py:137-145 | On a live connection, `reset` first writes ACT 0. A successful reset ends with the confirming GET ACT, GET STA. |
| Activation.AwaitReset | Gripper_Interface.py:142-144 | A successful reset loop ends with the confirming GET ACT, GET STA. |
| Activation.ResetPending | Gripper_Interface.py:142 | The loop condition ends the loop only after sending exactly GET ACT and then GET STA. |
| Activation.AwaitResetScripted | Gripper_Interface.py:142-144 | Against a device that gives unconfirmed passes and then ACT 0, STA 0, the loop sends each pass's frames and then the confirmation. A pass with ACT nonzero sends GET ACT, SET ACT 0 and does not query STA. A pass with ACT 0 and STA nonzero sends GET ACT, GET STA, SET ACT 0. |
| Activation.ResetScripted | Gripper_Interface.py:141-145 | The same, preceded by the initial SET ACT 0: the complete frame trace of a reset. |
| Activation.AwaitResetSilent | Gripper_Interface.py:142 | A device that goes silent after unconfirmed passes never lets the reset succeed. The next ACT query raises the read timeout. |
| Activation.AwaitResetExit | Gripper_Interface.py:142-144 | Whatever values the device reports, each in a well-formed reply that arrives in one recv, the loop reads them in passes. Every pass before the last is unconfirmed: ACT nonzero, or ACT 0 and then STA nonzero. The loop succeeds right after the first pass that reads ACT 0 and then STA 0. Otherwise it raises the read timeout with the script used up, having stopped after an unconfirmed pass or after a lone ACT 0. |
| Activation.ResetOutcomeUnique | Gripper_Interface.py:142-144 | The reset exit condition fixes the outcome: a script admits at most one number of readings consumed and one of success or read timeout. |
| Activation.ResetOutcomeExamples | Gripper_Interface.py:142-144 | On readings 0, 5, 0, 0, 0 the loop succeeds after four readings and not after five. Readings 0, 0 cannot end in the read timeout. |
| Activation.Activate | Gripper_Interface.py:147-165 | A successful activation ends with a GET STA. While Disconnected it raises the not-connected error. |
| Activation.AwaitActive | Gripper_Interface.py:159-163 | The STA poll ends in success or in the activation timeout only right after a GET STA. |
| Activation.ActivateWhenActive | Gripper_Interface.py:151-152 | If the first STA reading is 3, `activate` sends only that GET STA and succeeds. |
| Activation.ActivateChain | Gripper_Interface.py:151-160 | If the status is not 3, `activate` is the reset, then ACT 1, then the STA poll from the first clock sample. |
| Activation.ActivateReaches | Gripper_Interface.py:151-159 | The frames up to the STA poll are GET STA, the whole reset trace, and SET ACT 1. |
| Activation.AwaitActiveScripted | Gripper_Interface.py:159-163 | If STA readings other than 3 all come within the deadline and are followed by a 3, the poll succeeds after exactly one GET STA per reading. |
| Activation.AwaitActiveTimesOut | Gripper_Interface.py:159-162 | If a reading other than 3 comes after the deadline, the poll raises the activation timeout right after that reading. |
| Activation.AwaitActiveExit | Gripper_Interface.py:159-163 | Whatever values the device reports, each in a well-formed reply that arrives in one recv, and whatever the clock reads, the poll does one of three things. It succeeds on the first reading of 3. It raises the activation timeout on the first late reading other than 3. Or it raises the read timeout with every reading on time and none equal to 3. |
| Activation.ActivateScripted | Gripper_Interface.py:147-165 | Complete trace of a successful activation from a status other than 3: the reactivation frames and then one GET STA per poll. |
| Activation.ActivateTimesOut | Gripper_Interface.py:147-162 | The same trace, ending in the activation timeout when the last reading is late. |
| Motion.Clamp | Gripper_Interface.py:181-193 | Every clamped value is in 0..255. An in-range value is unchanged. Below 0 gives 0 and above 255 gives 255. |
| Motion.Configure | Gripper_Interface.py:181-191 | An absent speed or force always succeeds and sends nothing. A given one succeeds exactly when the client is connected and the name is ASCII, and then appends the one SET frame of its clamped value. When Disconnected it raises the not-connected error and leaves the state unchanged. |
| Motion.Prepare | Gripper_Interface.py:181-197 | Writing the move settings consumes no reply. It succeeds exactly when the client is connected. |
| Motion.PrepareSends | Gripper_Interface.py:181-197 | On a live connection the settings frames are, in order: SPE if given, FOR if given, POS and GTO 1. |
| Motion.SettingsParse | Gripper_Interface.py:181-197 | The device reads the settings frames as SET SPE, SET FOR, SET POS p and SET GTO 1, in that order, with clamped values. |
| Motion.MoveClampsInputs | Gripper_Interface.py:181-197 | Whatever the arguments, every settings frame of a move is a SET of a value in 0..255. |
| Motion.MoveSaturates | Gripper_Interface.py:181-193 | A move with out-of-range arguments is exactly the move with clamped arguments, so `move(-5)` is `move(0)` and `move(400)` is `move(255)`. |
| Motion.Move | Gripper_Interface.py:167-209 | On a live connection a move starts with exactly its settings frames. While Disconnected it raises the not-connected error. |
| Motion.Await | Gripper_Interface.py:200-206 | The status loops only append frames and consume replies. While Disconnected they raise the not-connected error. |
| Motion.AwaitScripted | Gripper_Interface.py:199-206 | If the readings do not end the loop until one that does, the loop succeeds after exactly one GET per reading. |
| Motion.AwaitExit | Gripper_Interface.py:199-206 | Whatever values the device reports, each in a well-formed reply that arrives in one recv, a status loop either succeeds right after the first reading that ends it, or raises the read timeout with none of the readings ending it. |
| Motion.Complete | Gripper_Interface.py:199-209 | The part of a move after the settings: the PRE loop, the OBJ loop when blocking, then GET POS. Its own contract states only that the session is extended; see "Left out". |
| Motion.Settle | Gripper_Interface.py:204-206 | Without `block` nothing is sent or read. |
| Motion.MoveScripted | Gripper_Interface.py:181-209 | Complete trace of a blocking move. The settings are followed by GET PRE until it echoes the clamped target. Then GET OBJ until it reads something other than 0. Then GET POS, whose value is the result. |
| Motion.MoveNoWait | Gripper_Interface.py:193-209 | A non-blocking move skips the OBJ loop: settings, GET PRE until the echo, then GET POS. |
| Motion.Grip | Gripper_Interface.py:211-221 | `grip` is exactly `move(255)` with no speed or force and the same `block`. Its first writes are POS 255 and GTO 1. |
| Motion.Release | Gripper_Interface.py:223-233 | `release` is exactly `move(0)` with no speed or force and the same `block`. Its first writes are POS 0 and GTO 1. |
| Motion.GetPos | Gripper_Interface.py:235-237 | A successful `get_pos` sends exactly GET POS. While Disconnected it raises the not-connected error. |
| Motion.GetPosReads | Gripper_Interface.py:237 | `get_pos` returns the value the device reports for POS. |
| Startup.Init | Gripper_Interface.py:29-53 | Without auto-init the client starts Disconnected and sends nothing. With auto-init it ends Connected exactly when initialisation succeeded. A failed connect leaves it untouched and Disconnected. A successful connect writes POS 0 first. |
| Startup.Closing | Gripper_Interface.py:49-51 | A caught error closes the connection and keeps the trace. A success keeps the connection. |
| Startup.InitChain | Gripper_Interface.py:44-51 | Auto-init is connect, SET POS 0, then `activate`, with the connection closed if activation fails. |
| Startup.InitActiveDevice | Gripper_Interface.py:44-48 | An already active device gets POS 0 and one GET STA, and the client stays Connected. |
| Startup.InitActivates | Gripper_Interface.py:44-48 | A device that activates in time: POS 0, then exactly the activation trace, and the client stays Connected. |
| Startup.InitTimesOut | Gripper_Interface.py:44-51 | A device that misses the deadline: the activation timeout is reported and the connection closed. |
| Startup.InitUnreachable | Gripper_Interface.py:44-51 | A refused or timed-out connection leaves the client Disconnected with nothing sent. |
| ConnectAsWritten.Connect | Gripper_Interface.py:59-69 | As written, a held socket object makes `connect` a no-op, and only refusal and timeout clear the socket. |
| ConnectAsWritten.AgreesOnHandledAttempts | Gripper_Interface.py:61-69 | Apart from the unhandled socket errors, the code as written and `Transport.Connect` agree. |
| ConnectAsWritten.StaleSocket | Gripper_Interface.py:59-69 | Counterexample: an unreachable attempt followed by an accepting one reports success while holding a socket that never connected. |
| ConnectAsWritten.RetryAfterSocketError | Gripper_Interface.py:61-69 | In the corrected `Transport.Connect` the same sequence connects. |

## Left out

- Sockets: creation, `settimeout(5.0)`, the address and port, and `sendall`. On a connected client a send always delivers the whole frame. The 1024-byte `recv` bound is not modelled: chunks have any length.
- OS errors on an established connection are not modelled. Examples are `BrokenPipeError` or `ConnectionResetError` from `sendall` or `recv` (Gripper_Interface.py lines 83 and 94). The only socket-level read failures are `socket.timeout` and the `ConnectionError` raised for an empty chunk.
- `time.sleep` pacing and settle delays have no observable effect and are not modelled.
- `atexit.register`, `print`, `warnings.warn` and the `_show_warnings` flag are side channels. None of them affects the frames or results.
- The `__main__` demonstration block is not modelled.
- Time is in integer milliseconds, whereas the source uses float seconds. The deadline test `elapsed > 10` becomes `elapsed > 10000` ms. The clock is an arbitrary function and need not be monotonic, so the results hold for any wall clock.
- Exception classes are collapsed into `Results.Error` constructors. The message texts are left out.
- Numerals.ParseInt: `int()` also accepts surrounding whitespace, underscores between digits and non-ASCII digits. The model does not, because a GET token never holds whitespace, and the other forms are not produced by the device. It also accepts digit strings of any length, whereas CPython 3.11 and later raise `ValueError` beyond 4300 digits (`sys.int_info.default_max_str_digits`). Register values are 0..255, so a real reply never comes near that limit.
- Ascii.Upper: upper-cases ASCII letters only. Python's `str.upper` also maps some non-ASCII letters to ASCII ones (U+017F becomes `S`). For such a name the model reports `NonAsciiCommand` where Python would send a frame.
- Protocol.Set: the value is already an integer. `int(val)` applied to a float or a string is not modelled. Formatting the value with `f"{int(val)}"` raises `ValueError` on CPython 3.11 and later for a value of more than 4300 digits. The model formats integers of any size, so for such a value it reports success where Python raises. Every value a move writes is first clamped to 0..255.
- Frames.SetFrame: a definition of the frame text with no contract of its own. The device's reading of it is in `Frames.SetFrameParses`, and its shape is in `Frames.FramesAscii` and `Frames.FramesAreOneLine`.
- Frames.GetFrame: a definition of the frame text with no contract of its own. The device's reading of it is in `Frames.GetFrameParses`, and its shape is in `Frames.FramesAscii` and `Frames.FramesAreOneLine`.
- Transport.ReadResponse: its own contract does not state the returned text. The stripped line before the first newline is stated by `Transport.ReadLineSpec`. The connection-lost and timeout outcomes are stated by `Transport.ReadLineLost` and `Transport.ReadLineTimedOut`.
- Protocol.Get: its own contract does not state the returned value `int(parts[1])`. That value is stated by `Protocol.GetReadsLine` (the reply line parsed by `Frames.ParseReply`) and by `Protocol.GetAnswered`.
- Activation.ResetPending: its own contract does not state that the loop condition is false exactly when ACT reads 0 and then STA reads 0. That is stated, for every script of well-formed replies, by `Activation.AwaitResetExit` together with `Activation.ResetOutcomeUnique`.
- Activation.AwaitReset: its own contract gives the confirming frames, not the readings that end the loop. These are in `Activation.AwaitResetExit`, `Activation.AwaitResetScripted` and `Activation.AwaitResetSilent`.
- Activation.Reset: its own contract gives the first frame and the confirming frames, not the readings. These are in `Activation.ResetScripted` and `Activation.AwaitResetExit`.
- Activation.AwaitActive: its own contract gives the final GET STA, not the reading or the deadline that ends the poll. These are in `Activation.AwaitActiveExit`, `Activation.AwaitActiveScripted` and `Activation.AwaitActiveTimesOut`.
- Activation.Activate: its own contract does not state that success means STA read 3, or that the activation timeout needs a late reading. These are in `Activation.ActivateChain` with `Activation.AwaitActiveExit`, and in `Activation.ActivateWhenActive`, `Activation.ActivateScripted` and `Activation.ActivateTimesOut`.
- Motion.Prepare: its own contract gives the success condition, not the frames. The frames are in `Motion.PrepareSends`.
- Motion.Settle: its own contract says nothing about `block` being true, which runs the OBJ loop. That loop's exit conditions are in `Motion.AwaitExit` and `Motion.AwaitScripted`.
- Motion.GetPos: its own contract does not state the returned position. That is stated by `Motion.GetPosReads`.
- Motion.Grip: its waits and returned position are those of `Motion.Move`, which it equals. See `Motion.MoveScripted` and `Motion.MoveNoWait`.
- Motion.Release: its waits and returned position are those of `Motion.Move`, which it equals. See `Motion.MoveScripted` and `Motion.MoveNoWait`.
- Motion.Complete: its contract states only that the session is extended. That the last frame is GET POS, and that the result is its value, is stated by `Motion.MoveScripted` and `Motion.MoveNoWait` for scripted devices.
- Motion.Move: its own contract states the settings prefix and the not-connected case. The waits are stated by `Motion.MoveScripted`, `Motion.MoveNoWait` and `Motion.AwaitExit`.
- Motion.Await: its own contract states only that the session is extended. Its exit conditions are in `Motion.AwaitExit` and `Motion.AwaitScripted`.
- Activation.AwaitResetExit: covers only devices whose every reply is a well-formed line that arrives in a single recv. Replies split over several recv calls are described one at a time by `Transport.ReadLineSpec`, but not by this loop lemma.
- Activation.AwaitActiveExit: covers only devices whose every reply is a well-formed line that arrives in a single recv, for the same reason.
- Motion.AwaitExit: covers only devices whose every reply is a well-formed line that arrives in a single recv, for the same reason.
- Ascii.Tokens: its own contract states only that every token is a word. The count and contents of the split are fixed by `Ascii.TokensOfSpread` and `Ascii.SpreadOfTokens` together.
- The PRE/OBJ loops and the reset loop have no deadline in the source, and none is added. Against a finite script, running out of replies shows up as the read timeout that a silent device would cause.

## Findings

| source | as written | input that shows it | evidently intended | confidence | as-written member | corrected member |
|---|---|---|---|---|---|---|
| Gripper_Interface.py:61-69 | `connect` stores the new socket before calling `connect` on it, and clears it only on `socket.timeout` or `ConnectionRefusedError`. Any other `OSError` (unreachable host, unresolvable name) leaves an unconnected socket in `_client_socket`. A later `connect()` then returns at line 59 as if connected, and the guards at lines 81 and 88 pass. | An unreachable attempt, caught by the caller, followed by a `connect()` against a reachable device. | Clear the socket on every failed connect, so a retry performs a handshake. | not executed | ConnectAsWritten.StaleSocket | ConnectAsWritten.RetryAfterSocketError |

The rest of the model uses the corrected `Transport.Connect`. In auto-initialisation the
catch-all `except` calls `disconnect`, which drops the stale socket, so only a caller of
`connect` outside the constructor can observe the defect.

=== FILE: activation.dfy ===
/**
 The activation state machine: `reset` (write ACT 0 and wait until ACT and
 STA both read 0) and `activate` (skip if STA already reads 3, otherwise
 reset, write ACT 1 and poll STA against a 10-second deadline).
 The clock is an input: `now(0)` is the reading taken when the STA poll
 starts and `now(k)` the k-th reading after it, in milliseconds.
 */
module Activation {
  import opened Results
  import opened Frames
  import opened Transport
  import opened Protocol

  /** The STA value of an activated gripper. */
  const Active := 3

  /** How long the STA poll of `activate` may run, in milliseconds. */
  const ActivationDeadline := 10000

  /** The last two frames of every successful reset: the check that read
      ACT 0 and then STA 0. */
  const Confirmation: seq<string> := [GetFrame("ACT"), GetFrame("STA")]

  /** `reset`: writes ACT 0, then waits for the device to confirm. */
  function Reset(w: World): (r: Run<()>)
    ensures Follows(w, r.world)
    ensures w.connected ==> |r.world.sent| > |w.sent| && r.world.sent[|w.sent|] == SetFrame("ACT", 0)
    ensures r.result.Success? ==> IsSuffix(Confirmation, r.world.sent)
    ensures !w.connected ==> r == Run(w, Failure(NotConnected))
  {
    ParameterNames();
    var s := Set(w, "ACT", 0);
    if s.result.Failure? then Run(s.world, Failure(s.result.error))
    else
      var r := AwaitReset(s.world);
      assert r.world.sent[|w.sent|] == s.world.sent[|w.sent|];
      r
  }

  /** The loop condition `GET ACT != 0 or GET STA != 0`, true while the
      reset is unconfirmed. The `or` short-circuits: STA is queried only
      after ACT has read 0. */
  function ResetPending(w: World): (r: Run<bool>)
    ensures Follows(w, r.world)
    ensures r.result.Success? ==> |r.world.inbox| < |w.inbox|
    ensures r.result == Success(false) ==> r.world.sent == w.sent + Confirmation
  {
    ParameterNames();
    var act := Get(w, "ACT");
    if act.result.Failure? then Run(act.world, Failure(act.result.error))
    else if act.result.value != 0 then Run(act.world, Success(true))
    else
      var sta := Get(act.world, "STA");
      FollowsTransitive(w, act.world, sta.world);
      ConfirmationSent(w.sent);
      if sta.result.Failure? then Run(sta.world, Failure(sta.result.error))
      else Run(sta.world, Success(sta.result.value != 0))
  }

  lemma ConfirmationSent(sent: seq<string>)
    ensures sent + [GetFrame("ACT")] + [GetFrame("STA")] == sent + Confirmation
  {
  }

  /** The loop `while GET ACT != 0 or GET STA != 0: SET ACT 0`. */
  function AwaitReset(w: World): (r: Run<()>)
    ensures Follows(w, r.world)
    ensures r.result.Success? ==> IsSuffix(Confirmation, r.world.sent)
    decreases |w.inbox|
  {
    ParameterNames();
    var pending := ResetPending(w);
    if pending.result.Failure? then Run(pending.world, Failure(pending.result.error))
    else if !pending.result.value then Run(pending.world, Success(()))
    else
      var again := Set(pending.world, "ACT", 0);
      match again.result
      case Failure(e) => Run(again.world, Failure(e))
      case Success(_) =>
        var r := AwaitReset(again.world);
        FollowsTransitive(w, pending.world, again.world);
        FollowsTransitive(w, again.world, r.world);
        r
  }

  /** `activate`. */
  function Activate(w: World, now: nat -> int): (r: Run<()>)
    ensures Follows(w, r.world)
    ensures r.result.Success? ==> IsSuffix([GetFrame("STA")], r.world.sent)
    ensures !w.connected ==> r == Run(w, Failure(NotConnected))
  {
    ParameterNames();
    var sta := Get(w, "STA");
    if sta.result.Failure? then Run(sta.world, Failure(sta.result.error))
    else if sta.result.value == Active then Run(sta.world, Success(()))
    else
      var reset := Reset(sta.world);
      if reset.result.Failure? then Run(reset.world, Failure(reset.result.error))
      else
        var act := Set(reset.world, "ACT", 1);
        match act.result
        case Failure(e) => Run(act.world, Failure(e))
        case Success(_) =>
          var r := AwaitActive(act.world, now, 1);
          FollowsTransitive(w, sta.world, reset.world);
          FollowsTransitive(w, reset.world, act.world);
          FollowsTransitive(w, act.world, r.world);
          r
  }

  /** The clock reading `j` comes more than the deadline after the first
      reading, which starts the poll. */
  predicate Overdue(now: nat -> int, j: nat) {
    now(j) - now(0) > ActivationDeadline
  }

  /** The loop `while GET STA != 3`, raising the activation timeout when a
      reading other than 3 comes more than the deadline after the start.
      `k` counts the clock readings taken so far. */
  function AwaitActive(w: World, now: nat -> int, k: nat): (r: Run<()>)
    ensures Follows(w, r.world)
    ensures r.result.Success? ==> IsSuffix([GetFrame("STA")], r.world.sent)
    ensures r.result == Failure(ActivationTimeout) ==> IsSuffix([GetFrame("STA")], r.world.sent)
    decreases |w.inbox|
  {
    ParameterNames();
    var sta := Get(w, "STA");
    if sta.result.Failure? then Run(sta.world, Failure(sta.result.error))
    else if sta.result.value == Active then Run(sta.world, Success(()))
    else if Overdue(now, k) then Run(sta.world, Failure(ActivationTimeout))
    else
      var r := AwaitActive(sta.world, now, k + 1);
      FollowsTransitive(w, sta.world, r.world);
      r
  }

  /** One unconfirmed pass of the reset loop, as the device answered it. */
  datatype ResetRound =
    | ActBusy(act: int)   // GET ACT read a nonzero value, so STA is not asked
    | StaBusy(sta: int)   // GET ACT read 0 but GET STA read a nonzero value

  predicate IsRetry(r: ResetRound) {
    match r
    case ActBusy(a) => a != 0
    case StaBusy(s) => s != 0
  }

  predicate AllRetries(rs: seq<ResetRound>) {
    forall i | 0 <= i < |rs| :: IsRetry(rs[i])
  }

  /** The values the device reports during one pass. */
  function RoundReadings(r: ResetRound): seq<int> {
    match r
    case ActBusy(a) => [a]
    case StaBusy(s) => [0, s]
  }

  /** The frames of one unconfirmed pass: the check, then ACT 0 again. */
  function RoundFrames(r: ResetRound): seq<string> {
    match r
    case ActBusy(_) => [GetFrame("ACT"), SetFrame("ACT", 0)]
    case StaBusy(_) => Confirmation + [SetFrame("ACT", 0)]
  }

  function RetryReadings(rs: seq<ResetRound>): seq<int> {
    if |rs| == 0 then [] else RoundReadings(rs[0]) + RetryReadings(rs[1..])
  }

  function RetryFrames(rs: seq<ResetRound>): seq<string> {
    if |rs| == 0 then [] else RoundFrames(rs[0]) + RetryFrames(rs[1..])
  }

  /** A GET of ACT or STA answered by the next scripted reply. */
  lemma Ask(w: World, name: string, vals: seq<int>)
    requires w.connected && Replies(w.inbox, vals) && |vals| > 0
    requires name == "ACT" || name == "STA"
    ensures Get(w, name) == Run(Asked(w, name), Success(vals[0]))
    ensures Replies(Asked(w, name).inbox, vals[1..])
  {
    ParameterNames();
    GetNext(w, name, vals);
  }

  lemma WriteAct(w: World, v: int)
    requires w.connected
    ensures Set(w, "ACT", v) == Run(w.(sent := w.sent + [SetFrame("ACT", v)]), Success(()))
  {
    ParameterNames();
  }

  // One-step unfoldings of `AwaitReset`, one per branch of its body. They
  // carry no new fact; they let the scripted proofs below name a single
  // branch instead of unfolding the whole recursive definition.
  lemma PendingByAct(w: World, w1: World, a: int)
    requires Get(w, "ACT") == Run(w1, Success(a)) && a != 0
    ensures ResetPending(w) == Run(w1, Success(true))
  {
  }

  lemma PendingBySta(w: World, w1: World, w2: World, s: int)
    requires Get(w, "ACT") == Run(w1, Success(0)) && Get(w1, "STA") == Run(w2, Success(s))
    ensures ResetPending(w) == Run(w2, Success(s != 0))
  {
  }

  lemma AwaitResetAgain(w: World, w1: World, w2: World)
    requires ResetPending(w) == Run(w1, Success(true)) && Set(w1, "ACT", 0) == Run(w2, Success(()))
    ensures AwaitReset(w) == AwaitReset(w2)
  {
  }

  lemma AwaitResetDone(w: World, w1: World)
    requires ResetPending(w) == Run(w1, Success(false))
    ensures AwaitReset(w) == Run(w1, Success(()))
  {
  }

  lemma ActBusyWorld(w: World, a: int)
    requires |w.inbox| > 0
    ensures var w1 := Asked(w, "ACT");
      w1.(sent := w1.sent + [SetFrame("ACT", 0)]) == w.(sent := w.sent + RoundFrames(ActBusy(a)), inbox := w.inbox[1..])
  {
  }

  lemma StaBusyWorld(w: World, st: int)
    requires |w.inbox| > 1
    ensures var w2 := Asked(Asked(w, "ACT"), "STA");
      w2.(sent := w2.sent + [SetFrame("ACT", 0)]) == w.(sent := w.sent + RoundFrames(StaBusy(st)), inbox := w.inbox[2..])
  {
    assert w.inbox[1..][1..] == w.inbox[2..];
  }

  /** A pass whose ACT query reads `a != 0`. */
  lemma RetryActBusy(w: World, a: int)
    requires w.connected && a != 0 && Replies(w.inbox, [a])
    ensures AwaitReset(w) == AwaitReset(w.(sent := w.sent + RoundFrames(ActBusy(a)), inbox := w.inbox[1..]))
  {
    var w1 := Asked(w, "ACT");
    var w2 := w1.(sent := w1.sent + [SetFrame("ACT", 0)]);
    ActBusyWorld(w, a);
    Ask(w, "ACT", [a]);
    PendingByAct(w, w1, a);
    WriteAct(w1, 0);
    AwaitResetAgain(w, w1, w2);
  }

  /** A pass whose ACT query reads 0 and whose STA query reads `st != 0`. */
  lemma RetryStaBusy(w: World, st: int)
    requires w.connected && st != 0 && Replies(w.inbox, [0, st])
    ensures AwaitReset(w) == AwaitReset(w.(sent := w.sent + RoundFrames(StaBusy(st)), inbox := w.inbox[2..]))
  {
    var w1 := Asked(w, "ACT");
    var w2 := Asked(w1, "STA");
    var w3 := w2.(sent := w2.sent + [SetFrame("ACT", 0)]);
    StaBusyWorld(w, st);
    Ask(w, "ACT", [0, st]);
    assert [0, st][1..] == [st];
    Ask(w1, "STA", [st]);
    PendingBySta(w, w1, w2, st);
    WriteAct(w2, 0);
    AwaitResetAgain(w, w2, w3);
  }

  /** An unconfirmed pass sends its check and ACT 0, consumes its readings,
      and leaves the loop where it started. */
  lemma AwaitResetRetry(w: World, r: ResetRound)
    requires w.connected && IsRetry(r)
    requires Replies(w.inbox, RoundReadings(r))
    ensures AwaitReset(w) == AwaitReset(w.(sent := w.sent + RoundFrames(r), inbox := w.inbox[|RoundReadings(r)|..]))
  {
    match r
    case ActBusy(a) =>
      RetryActBusy(w, a);
    case StaBusy(st) =>
      RetryStaBusy(w, st);
  }

  lemma AwaitResetConfirmed(w: World)
    requires w.connected && Replies(w.inbox, [0, 0])
    ensures AwaitReset(w) == Run(w.(sent := w.sent + Confirmation, inbox := w.inbox[2..]), Success(()))
  {
    var w1 := Asked(w, "ACT");
    var w2 := Asked(w1, "STA");
    ConfirmedWorld(w);
    Ask(w, "ACT", [0, 0]);
    assert [0, 0][1..] == [0];
    Ask(w1, "STA", [0]);
    PendingBySta(w, w1, w2, 0);
    AwaitResetDone(w, w2);
  }

  lemma ConfirmedWorld(w: World)
    requires |w.inbox| > 1
    ensures Asked(Asked(w, "ACT"), "STA") == w.(sent := w.sent + Confirmation, inbox := w.inbox[2..])
  {
    assert w.inbox[1..][1..] == w.inbox[2..];
  }

  lemma RetriesTail(rs: seq<ResetRound>)
    requires |rs| > 0 && AllRetries(rs)
    ensures IsRetry(rs[0]) && AllRetries(rs[1..])
  {
    assert forall i | 0 <= i < |rs| - 1 :: rs[1..][i] == rs[i + 1];
  }

  /** Unrolling the first pass off the frames and readings of a script. */
  lemma RetryUnroll(rs: seq<ResetRound>, sent: seq<string>, extra: seq<string>, inbox: seq<Recv>, skip: nat)
    requires |rs| > 0 && |RetryReadings(rs)| + skip <= |inbox|
    ensures var m := |RoundReadings(rs[0])|;
      && sent + RoundFrames(rs[0]) + RetryFrames(rs[1..]) + extra == sent + RetryFrames(rs) + extra
      && m + |RetryReadings(rs[1..])| == |RetryReadings(rs)|
      && inbox[m..][|RetryReadings(rs[1..])| + skip..] == inbox[|RetryReadings(rs)| + skip..]
  {
  }

  /** Against a device that answers some unconfirmed passes and then ACT 0,
      STA 0, the loop sends exactly the passes' frames and the confirming
      check, and consumes exactly those readings. */
  lemma {:induction false} AwaitResetScripted(w: World, rs: seq<ResetRound>)
    requires w.connected && AllRetries(rs)
    requires Replies(w.inbox, RetryReadings(rs) + [0, 0])
    ensures AwaitReset(w) == Run(w.(sent := w.sent + RetryFrames(rs) + Confirmation,
                                    inbox := w.inbox[|RetryReadings(rs)| + 2..]), Success(()))
    decreases |rs|
  {
    if |rs| == 0 {
      ResetNoPass(w, rs);
    } else {
      var w1 := ResetPassStep(w, rs);
      AwaitResetScripted(w1, rs[1..]);
    }
  }

  /** A scripted reset whose first pass is confirmed. */
  lemma ResetNoPass(w: World, rs: seq<ResetRound>)
    requires w.connected && |rs| == 0
    requires Replies(w.inbox, RetryReadings(rs) + [0, 0])
    ensures AwaitReset(w) == Run(w.(sent := w.sent + RetryFrames(rs) + Confirmation,
                                    inbox := w.inbox[|RetryReadings(rs)| + 2..]), Success(()))
  {
    NoRetries(rs, w.sent);
    AwaitResetConfirmed(w);
  }

  lemma NoRetries(rs: seq<ResetRound>, sent: seq<string>)
    requires |rs| == 0
    ensures RetryReadings(rs) + [0, 0] == [0, 0] && |RetryReadings(rs)| == 0
    ensures sent + RetryFrames(rs) + Confirmation == sent + Confirmation
  {
    assert RetryFrames(rs) == [];
    assert sent + [] == sent;
  }

  /** The first unconfirmed pass of a scripted reset, and what is left of
      the script after it. */
  lemma ResetPassStep(w: World, rs: seq<ResetRound>) returns (w1: World)
    requires w.connected && 0 < |rs| && AllRetries(rs)
    requires Replies(w.inbox, RetryReadings(rs) + [0, 0])
    ensures w1.connected && AllRetries(rs[1..])
    ensures Replies(w1.inbox, RetryReadings(rs[1..]) + [0, 0])
    ensures AwaitReset(w) == AwaitReset(w1)
    ensures w1.(sent := w1.sent + RetryFrames(rs[1..]) + Confirmation,
                inbox := w1.inbox[|RetryReadings(rs[1..])| + 2..])
         == w.(sent := w.sent + RetryFrames(rs) + Confirmation,
               inbox := w.inbox[|RetryReadings(rs)| + 2..])
  {
    var r := rs[0];
    var m := |RoundReadings(r)|;
    var tail := RetryReadings(rs[1..]) + [0, 0];
    assert RetryReadings(rs) + [0, 0] == RoundReadings(r) + tail;
    RepliesSplit(w.inbox, RoundReadings(r), tail);
    RetriesTail(rs);
    RetryUnroll(rs, w.sent, Confirmation, w.inbox, 2);
    AwaitResetRetry(w, r);
    w1 := w.(sent := w.sent + RoundFrames(r), inbox := w.inbox[m..]);
  }

  /** `reset` against the same device: ACT 0, the passes, the confirmation. */
  lemma ResetScripted(w: World, rs: seq<ResetRound>)
    requires w.connected && AllRetries(rs)
    requires Replies(w.inbox, RetryReadings(rs) + [0, 0])
    ensures Reset(w) == Run(w.(sent := w.sent + [SetFrame("ACT", 0)] + RetryFrames(rs) + Confirmation,
                               inbox := w.inbox[|RetryReadings(rs)| + 2..]), Success(()))
  {
    var w1 := w.(sent := w.sent + [SetFrame("ACT", 0)]);
    WriteAct(w, 0);
    AwaitResetScripted(w1, rs);
    ResetStarts(w, w1);
  }

  lemma ResetStarts(w: World, w1: World)
    requires Set(w, "ACT", 0) == Run(w1, Success(()))
    ensures Reset(w) == AwaitReset(w1)
  {
  }

  lemma PendingActFails(w: World, w1: World, e: Error)
    requires Get(w, "ACT") == Run(w1, Failure(e))
    ensures ResetPending(w) == Run(w1, Failure(e))
  {
  }

  lemma PendingStaFails(w: World, w1: World, w2: World, e: Error)
    requires Get(w, "ACT") == Run(w1, Success(0)) && Get(w1, "STA") == Run(w2, Failure(e))
    ensures ResetPending(w) == Run(w2, Failure(e))
  {
  }

  lemma AwaitResetFails(w: World, w1: World, e: Error)
    requires ResetPending(w) == Run(w1, Failure(e))
    ensures AwaitReset(w) == Run(w1, Failure(e))
  {
  }

  lemma AskSilent(w: World, name: string)
    requires w.connected && |w.inbox| == 0 && (name == "ACT" || name == "STA")
    ensures Get(w, name) == Run(w.(sent := w.sent + [GetFrame(name)]), Failure(ReadTimeout))
  {
    ParameterNames();
    GetUnanswered(w, name);
  }

  /** Against a device that falls silent after some unconfirmed passes, the
      loop never reports success: the next ACT query times out. */
  lemma {:induction false} AwaitResetSilent(w: World, rs: seq<ResetRound>)
    requires w.connected && AllRetries(rs)
    requires Replies(w.inbox, RetryReadings(rs)) && |w.inbox| == |RetryReadings(rs)|
    ensures AwaitReset(w) == Run(w.(sent := w.sent + RetryFrames(rs) + [GetFrame("ACT")], inbox := []),
                                 Failure(ReadTimeout))
    decreases |rs|
  {
    if |rs| == 0 {
      var w1 := w.(sent := w.sent + [GetFrame("ACT")]);
      AskSilent(w, "ACT");
      PendingActFails(w, w1, ReadTimeout);
      AwaitResetFails(w, w1, ReadTimeout);
      assert w.sent + RetryFrames(rs) + [GetFrame("ACT")] == w1.sent;
    } else {
      SilentStep(w, rs);
      var w1 := w.(sent := w.sent + RoundFrames(rs[0]), inbox := w.inbox[|RoundReadings(rs[0])|..]);
      AwaitResetSilent(w1, rs[1..]);
    }
  }

  lemma SilentStep(w: World, rs: seq<ResetRound>)
    requires w.connected && |rs| > 0 && AllRetries(rs)
    requires Replies(w.inbox, RetryReadings(rs)) && |w.inbox| == |RetryReadings(rs)|
    ensures var w1 := w.(sent := w.sent + RoundFrames(rs[0]), inbox := w.inbox[|RoundReadings(rs[0])|..]);
      && AwaitReset(w) == AwaitReset(w1)
      && AllRetries(rs[1..])
      && Replies(w1.inbox, RetryReadings(rs[1..])) && |w1.inbox| == |RetryReadings(rs[1..])|
      && w1.sent + RetryFrames(rs[1..]) + [GetFrame("ACT")] == w.sent + RetryFrames(rs) + [GetFrame("ACT")]
  {
    var r := rs[0];
    assert RetryReadings(rs) == RoundReadings(r) + RetryReadings(rs[1..]);
    RepliesSplit(w.inbox, RoundReadings(r), RetryReadings(rs[1..]));
    RetriesTail(rs);
    RetryUnroll(rs, w.sent, [GetFrame("ACT")], w.inbox, 0);
    AwaitResetRetry(w, r);
  }

  /** What the reset loop may have done once it has consumed the first `n`
      of the readings `vals`. It succeeded when those readings are
      unconfirmed passes followed by the first ACT 0 whose STA reading is
      also 0. It timed out when the whole script is unconfirmed passes,
      possibly followed by an ACT 0 whose STA query went unanswered. */
  ghost predicate ResetOutcome(vals: seq<int>, n: int, r: Result<()>) {
    && 0 <= n <= |vals|
    && (r.Success? ==> exists rs | AllRetries(rs) :: vals[..n] == RetryReadings(rs) + [0, 0])
    && (r.Failure? ==>
          && r.error == ReadTimeout && n == |vals|
          && exists rs | AllRetries(rs) :: vals == RetryReadings(rs) || vals == RetryReadings(rs) + [0])
  }

  /** The exit property of the reset loop on the script `vals`. */
  ghost predicate ExitOk(before: nat, r: Run<()>, vals: seq<int>) {
    ResetOutcome(vals, before - |r.world.inbox|, r.result)
  }

  /** The outcomes that end the loop before any unconfirmed pass. */
  lemma FirstPassOutcome(vals: seq<int>, n: int, r: Result<()>)
    requires 0 <= n <= |vals|
    requires r.Success? ==> 2 <= n && vals[..n] == [0, 0]
    requires r.Failure? ==> r.error == ReadTimeout && n == |vals| && (vals == [] || vals == [0])
    ensures ResetOutcome(vals, n, r)
  {
    var none: seq<ResetRound> := [];
    assert AllRetries(none) && RetryReadings(none) == [];
    assert RetryReadings(none) + [0, 0] == [0, 0];
    assert RetryReadings(none) + [0] == [0];
  }

  /** An unconfirmed pass `r0` in front of a script adds one round to the
      passes the outcome of the rest of the script is made of. */
  lemma OutcomeShift(vals: seq<int>, r0: ResetRound, n: int, r: Result<()>)
    requires IsRetry(r0) && |RoundReadings(r0)| <= |vals|
    requires vals[..|RoundReadings(r0)|] == RoundReadings(r0)
    requires ResetOutcome(vals[|RoundReadings(r0)|..], n, r)
    ensures ResetOutcome(vals, |RoundReadings(r0)| + n, r)
  {
    var m := |RoundReadings(r0)|;
    var t := vals[m..];
    assert vals == RoundReadings(r0) + t;
    if r.Success? {
      var rs :| AllRetries(rs) && t[..n] == RetryReadings(rs) + [0, 0];
      ConfirmedAfter(r0, rs, t, vals, n);
    } else {
      var rs :| AllRetries(rs) && (t == RetryReadings(rs) || t == RetryReadings(rs) + [0]);
      UnconfirmedAfter(r0, rs, t, vals);
    }
  }

  lemma ConfirmedAfter(r0: ResetRound, rs: seq<ResetRound>, t: seq<int>, vals: seq<int>, n: int)
    requires IsRetry(r0) && AllRetries(rs) && vals == RoundReadings(r0) + t
    requires 0 <= n <= |t| && t[..n] == RetryReadings(rs) + [0, 0]
    ensures AllRetries([r0] + rs)
    ensures vals[..|RoundReadings(r0)| + n] == RetryReadings([r0] + rs) + [0, 0]
  {
    RetriesCons(r0, rs);
    assert vals[..|RoundReadings(r0)| + n] == RoundReadings(r0) + t[..n];
  }

  lemma UnconfirmedAfter(r0: ResetRound, rs: seq<ResetRound>, t: seq<int>, vals: seq<int>)
    requires IsRetry(r0) && AllRetries(rs) && vals == RoundReadings(r0) + t
    requires t == RetryReadings(rs) || t == RetryReadings(rs) + [0]
    ensures AllRetries([r0] + rs)
    ensures vals == RetryReadings([r0] + rs) || vals == RetryReadings([r0] + rs) + [0]
  {
    RetriesCons(r0, rs);
  }

  /** What may follow the unconfirmed passes of a script: nothing, a lone
      ACT 0, or the confirming ACT 0, STA 0. None of these starts a pass. */
  predicate PassEnd(a: seq<int>) {
    |a| == 0 || (a[0] == 0 && (|a| == 1 || a[1] == 0))
  }

  /** A script splits into unconfirmed passes in only one way: the passes
      are determined by the readings. */
  lemma {:induction false} RetriesUnique(rs1: seq<ResetRound>, a: seq<int>, rs2: seq<ResetRound>, b: seq<int>)
    requires AllRetries(rs1) && AllRetries(rs2) && PassEnd(a) && PassEnd(b)
    requires RetryReadings(rs1) + a == RetryReadings(rs2) + b
    ensures rs1 == rs2 && a == b
    decreases |rs1|
  {
    if |rs1| == 0 && |rs2| == 0 {
      assert RetryReadings(rs1) == [] == RetryReadings(rs2);
      assert a == RetryReadings(rs1) + a;
      assert b == RetryReadings(rs2) + b;
    } else if |rs1| == 0 {
      assert a == RetryReadings(rs1) + a;
      StartsWithPass(rs2, b);
      assert false;
    } else if |rs2| == 0 {
      assert b == RetryReadings(rs2) + b;
      StartsWithPass(rs1, a);
      assert false;
    } else {
      RetriesTail(rs1);
      RetriesTail(rs2);
      FirstPass(rs1, a);
      FirstPass(rs2, b);
      SameFirstRound(rs1[0], rs2[0], RetryReadings(rs1[1..]) + a, RetryReadings(rs2[1..]) + b);
      RetriesUnique(rs1[1..], a, rs2[1..], b);
      SameParts(rs1, rs2);
    }
  }

  lemma FirstPass(rs: seq<ResetRound>, a: seq<int>)
    requires 0 < |rs|
    ensures RetryReadings(rs) + a == RoundReadings(rs[0]) + (RetryReadings(rs[1..]) + a)
  {
  }

  lemma SameParts(rs1: seq<ResetRound>, rs2: seq<ResetRound>)
    requires 0 < |rs1| && 0 < |rs2| && rs1[0] == rs2[0] && rs1[1..] == rs2[1..]
    ensures rs1 == rs2
  {
    assert rs1 == [rs1[0]] + rs1[1..] && rs2 == [rs2[0]] + rs2[1..];
  }

  /** A script that starts with an unconfirmed pass is not a pass end. */
  lemma StartsWithPass(rs: seq<ResetRound>, b: seq<int>)
    requires 0 < |rs| && AllRetries(rs)
    ensures !PassEnd(RetryReadings(rs) + b)
  {
    RetriesTail(rs);
  }

  /** Two unconfirmed passes that open the same readings are the same pass. */
  lemma SameFirstRound(r1: ResetRound, r2: ResetRound, t1: seq<int>, t2: seq<int>)
    requires IsRetry(r1) && IsRetry(r2) && RoundReadings(r1) + t1 == RoundReadings(r2) + t2
    ensures r1 == r2 && t1 == t2
  {
    var v := RoundReadings(r1) + t1;
    assert v[0] == RoundReadings(r1)[0] == RoundReadings(r2)[0];
    if r1.StaBusy? {
      assert v[1] == RoundReadings(r1)[1] == RoundReadings(r2)[1];
    }
    assert t1 == v[|RoundReadings(r1)|..] == t2;
  }

  /** The outcome is a function of the script: the number of readings the
      reset loop consumes, and whether it succeeds, are determined by the
      values the device reports. */
  lemma ResetOutcomeUnique(vals: seq<int>, n1: int, r1: Result<()>, n2: int, r2: Result<()>)
    requires ResetOutcome(vals, n1, r1) && ResetOutcome(vals, n2, r2)
    ensures n1 == n2 && r1.Success? == r2.Success?
  {
    if r1.Success? && r2.Success? {
      ConfirmedOnce(vals, n1, n2);
    } else if r1.Success? {
      ConfirmedNotTimedOut(vals, n1, r2);
    } else if r2.Success? {
      ConfirmedNotTimedOut(vals, n2, r1);
    }
  }

  lemma ConfirmedOnce(vals: seq<int>, n1: int, n2: int)
    requires ResetOutcome(vals, n1, Success(())) && ResetOutcome(vals, n2, Success(()))
    ensures n1 == n2
  {
    var rs1 :| AllRetries(rs1) && vals[..n1] == RetryReadings(rs1) + [0, 0];
    var rs2 :| AllRetries(rs2) && vals[..n2] == RetryReadings(rs2) + [0, 0];
    ConfirmedSplit(vals, n1, RetryReadings(rs1));
    ConfirmedSplit(vals, n2, RetryReadings(rs2));
    RetriesUnique(rs1, [0, 0] + vals[n1..], rs2, [0, 0] + vals[n2..]);
  }

  lemma ConfirmedSplit(vals: seq<int>, n: int, p: seq<int>)
    requires 0 <= n <= |vals| && vals[..n] == p + [0, 0]
    ensures vals == p + ([0, 0] + vals[n..])
  {
    assert vals == vals[..n] + vals[n..];
  }

  lemma ConfirmedNotTimedOut(vals: seq<int>, n: int, r: Result<()>)
    requires ResetOutcome(vals, n, Success(())) && r.Failure?
    ensures !ResetOutcome(vals, |vals|, r)
  {
    if ResetOutcome(vals, |vals|, r) {
      var rs1 :| AllRetries(rs1) && vals[..n] == RetryReadings(rs1) + [0, 0];
      var rs2 :| AllRetries(rs2) && (vals == RetryReadings(rs2) || vals == RetryReadings(rs2) + [0]);
      ConfirmedSplit(vals, n, RetryReadings(rs1));
      var b := if vals == RetryReadings(rs2) then [] else [0];
      assert vals == RetryReadings(rs2) + b;
      RetriesUnique(rs1, [0, 0] + vals[n..], rs2, b);
    }
  }

  /** The script ACT 0, STA 5, ACT 0, STA 0, ACT 0 confirms after four
      readings and at no other point, and ACT 0, STA 0 cannot time out. */
  lemma ResetOutcomeExamples()
    ensures ResetOutcome([0, 5, 0, 0, 0], 4, Success(()))
    ensures !ResetOutcome([0, 5, 0, 0, 0], 5, Success(()))
    ensures !ResetOutcome([0, 0], 2, Failure(ReadTimeout))
  {
    var rs := [StaBusy(5)];
    assert AllRetries(rs) && RetryReadings(rs) == [0, 5];
    assert [0, 5, 0, 0, 0][..4] == RetryReadings(rs) + [0, 0];
    if ResetOutcome([0, 5, 0, 0, 0], 5, Success(())) {
      ResetOutcomeUnique([0, 5, 0, 0, 0], 4, Success(()), 5, Success(()));
    }
    var none: seq<ResetRound> := [];
    assert AllRetries(none) && [0, 0][..2] == RetryReadings(none) + [0, 0];
    if ResetOutcome([0, 0], 2, Failure(ReadTimeout)) {
      ResetOutcomeUnique([0, 0], 2, Success(()), 2, Failure(ReadTimeout));
    }
  }

  /** Prepending a pass to a list of passes. */
  lemma RetriesCons(r0: ResetRound, rs: seq<ResetRound>)
    requires IsRetry(r0) && AllRetries(rs)
    ensures AllRetries([r0] + rs)
    ensures RetryReadings([r0] + rs) == RoundReadings(r0) + RetryReadings(rs)
  {
    var qs := [r0] + rs;
    assert qs[0] == r0 && qs[1..] == rs;
    forall i | 0 <= i < |qs|
      ensures IsRetry(qs[i])
    {
      if i > 0 {
        assert qs[i] == rs[i - 1];
      }
    }
  }

  /** Whatever values the device reports, each in a well-formed reply that
      arrives in one recv, the loop reads them in (ACT, STA) passes: every
      pass but the last is unconfirmed, and the loop succeeds right after the
      first pass that reads ACT 0 and then STA 0, or else runs until the
      device falls silent (`ResetOutcome`). */
  lemma {:induction false} AwaitResetExit(w: World, vals: seq<int>)
    requires w.connected && |vals| == |w.inbox| && Replies(w.inbox, vals)
    ensures ExitOk(|w.inbox|, AwaitReset(w), vals)
    decreases |w.inbox|
  {
    if |w.inbox| == 0 {
      ExitSilent(w, vals);
    } else if vals[0] != 0 {
      assert vals[..1] == [vals[0]];
      RetryFirst(w, vals, ActBusy(vals[0]));
      RetryStep(w, w.(sent := w.sent + RoundFrames(ActBusy(vals[0])), inbox := w.inbox[1..]), vals, ActBusy(vals[0]));
    } else if |vals| == 1 {
      ExitStaSilent(w, vals);
    } else if vals[1] != 0 {
      assert vals[..2] == [0, vals[1]];
      RetryFirst(w, vals, StaBusy(vals[1]));
      RetryStep(w, w.(sent := w.sent + RoundFrames(StaBusy(vals[1])), inbox := w.inbox[2..]), vals, StaBusy(vals[1]));
    } else {
      ExitConfirmed(w, vals);
    }
  }

  /** No reading at all: the ACT query times out. */
  lemma ExitSilent(w: World, vals: seq<int>)
    requires w.connected && |vals| == |w.inbox| == 0
    ensures ExitOk(|w.inbox|, AwaitReset(w), vals)
  {
    var w1 := w.(sent := w.sent + [GetFrame("ACT")]);
    AskSilent(w, "ACT");
    PendingActFails(w, w1, ReadTimeout);
    AwaitResetFails(w, w1, ReadTimeout);
    UnansweredOutcome(vals, |w.inbox|, AwaitReset(w));
  }

  /** A single reading of ACT 0: the STA query times out. */
  lemma ExitStaSilent(w: World, vals: seq<int>)
    requires w.connected && |vals| == |w.inbox| == 1 && vals[0] == 0 && Replies(w.inbox, vals)
    ensures ExitOk(|w.inbox|, AwaitReset(w), vals)
  {
    var w1 := Asked(w, "ACT");
    var w2 := w1.(sent := w1.sent + [GetFrame("STA")]);
    Ask(w, "ACT", vals);
    AskSilent(w1, "STA");
    PendingStaFails(w, w1, w2, ReadTimeout);
    AwaitResetFails(w, w2, ReadTimeout);
    assert vals == [0];
    UnansweredOutcome(vals, |w.inbox|, AwaitReset(w));
  }

  lemma UnansweredOutcome(vals: seq<int>, before: nat, r: Run<()>)
    requires |vals| == before && (vals == [] || vals == [0])
    requires r.result == Failure(ReadTimeout) && |r.world.inbox| == 0
    ensures ExitOk(before, r, vals)
  {
    FirstPassOutcome(vals, before, r.result);
  }

  /** Readings ACT 0 then STA 0: the loop ends after two readings. */
  lemma ExitConfirmed(w: World, vals: seq<int>)
    requires w.connected && |vals| == |w.inbox| >= 2 && vals[0] == 0 && vals[1] == 0 && Replies(w.inbox, vals)
    ensures ExitOk(|w.inbox|, AwaitReset(w), vals)
  {
    assert vals == [0, 0] + vals[2..];
    RepliesSplit(w.inbox, [0, 0], vals[2..]);
    AwaitResetConfirmed(w);
    ConfirmedOutcome(vals, |w.inbox|, AwaitReset(w));
  }

  lemma ConfirmedOutcome(vals: seq<int>, before: nat, r: Run<()>)
    requires |vals| == before >= 2 && vals[0] == 0 && vals[1] == 0
    requires r.result == Success(()) && |r.world.inbox| == before - 2
    ensures ExitOk(before, r, vals)
  {
    assert vals[..2] == [0, 0];
    FirstPassOutcome(vals, 2, r.result);
  }

  /** One unconfirmed pass, after which the loop is where it started on
      the rest of the script, followed by the exit property of the rest. */
  lemma {:induction false} RetryStep(w: World, w1: World, vals: seq<int>, r0: ResetRound)
    requires IsRetry(r0) && |RoundReadings(r0)| <= |vals| && vals[..|RoundReadings(r0)|] == RoundReadings(r0)
    requires AwaitReset(w) == AwaitReset(w1) && |w.inbox| == |w1.inbox| + |RoundReadings(r0)|
    requires w1.connected && |vals[|RoundReadings(r0)|..]| == |w1.inbox| && Replies(w1.inbox, vals[|RoundReadings(r0)|..])
    ensures ExitOk(|w.inbox|, AwaitReset(w), vals)
    decreases |w.inbox|, 0
  {
    var m := |RoundReadings(r0)|;
    AwaitResetExit(w1, vals[m..]);
    ExitShift(vals, r0, |w.inbox|, |w1.inbox|, AwaitReset(w1));
  }

  /** The first pass of a script, when it is unconfirmed. */
  lemma RetryFirst(w: World, vals: seq<int>, r: ResetRound)
    requires w.connected && IsRetry(r) && |vals| == |w.inbox|
    requires Replies(w.inbox, vals) && |RoundReadings(r)| <= |vals| && vals[..|RoundReadings(r)|] == RoundReadings(r)
    ensures var m := |RoundReadings(r)|; var w1 := w.(sent := w.sent + RoundFrames(r), inbox := w.inbox[m..]);
      AwaitReset(w) == AwaitReset(w1) && Replies(w1.inbox, vals[m..])
  {
    ScriptSplit(w.inbox, vals, r);
    AwaitResetRetry(w, r);
  }

  /** Splitting a script after the readings of one pass. */
  lemma ScriptSplit(inbox: seq<Recv>, vals: seq<int>, r: ResetRound)
    requires Replies(inbox, vals) && |RoundReadings(r)| <= |vals| && vals[..|RoundReadings(r)|] == RoundReadings(r)
    ensures Replies(inbox, RoundReadings(r))
    ensures Replies(inbox[|RoundReadings(r)|..], vals[|RoundReadings(r)|..])
  {
    var m := |RoundReadings(r)|;
    assert vals == RoundReadings(r) + vals[m..];
    RepliesSplit(inbox, RoundReadings(r), vals[m..]);
  }

  lemma ExitShift(vals: seq<int>, r0: ResetRound, a: nat, b: nat, r: Run<()>)
    requires IsRetry(r0) && |RoundReadings(r0)| <= |vals| && vals[..|RoundReadings(r0)|] == RoundReadings(r0)
    requires a == b + |RoundReadings(r0)| && ExitOk(b, r, vals[|RoundReadings(r0)|..])
    ensures ExitOk(a, r, vals)
  {
    OutcomeShift(vals, r0, b - |r.world.inbox|, r.result);
  }

  // One-step unfoldings of `AwaitActive`, one per branch of its body, used as
  // solver aids by the scripted proofs.
  lemma PollDone(w: World, now: nat -> int, k: nat, w1: World)
    requires Get(w, "STA") == Run(w1, Success(Active))
    ensures AwaitActive(w, now, k) == Run(w1, Success(()))
  {
  }

  lemma PollLate(w: World, now: nat -> int, k: nat, w1: World, s: int)
    requires Get(w, "STA") == Run(w1, Success(s)) && s != Active
    requires Overdue(now, k)
    ensures AwaitActive(w, now, k) == Run(w1, Failure(ActivationTimeout))
  {
  }

  lemma PollAgain(w: World, now: nat -> int, k: nat, w1: World, s: int)
    requires Get(w, "STA") == Run(w1, Success(s)) && s != Active
    requires !Overdue(now, k)
    ensures AwaitActive(w, now, k) == AwaitActive(w1, now, k + 1)
  {
  }

  lemma PollFails(w: World, now: nat -> int, k: nat, w1: World, e: Error)
    requires Get(w, "STA") == Run(w1, Failure(e))
    ensures AwaitActive(w, now, k) == Run(w1, Failure(e))
  {
  }

  /** The `i`-th STA reading of a poll that started at clock reading `k`
      was not 3 and came within the deadline, so the poll went on. */
  predicate Passed(vals: seq<int>, now: nat -> int, k: nat, i: nat)
    requires i < |vals|
  {
    vals[i] != Active && !Overdue(now, k + i)
  }

  predicate AllPassed(vals: seq<int>, now: nat -> int, k: nat, count: nat)
    requires count <= |vals|
  {
    forall i | 0 <= i < count :: Passed(vals, now, k, i)
  }

  lemma PassedTail(vals: seq<int>, now: nat -> int, k: nat, count: nat)
    requires 0 < count <= |vals| && AllPassed(vals, now, k, count)
    ensures vals[0] != Active && !Overdue(now, k)
    ensures AllPassed(vals[1..], now, k + 1, count - 1)
  {
    assert Passed(vals, now, k, 0);
    var tail := vals[1..];
    var k1 := k + 1;
    forall i | 0 <= i < count - 1
      ensures Passed(tail, now, k1, i)
    {
      assert Passed(vals, now, k, i + 1);
      assert tail[i] == vals[i + 1];
    }
  }

  lemma PassedCons(vals: seq<int>, now: nat -> int, k: nat, count: nat)
    requires 0 < count <= |vals| && Passed(vals, now, k, 0)
    requires AllPassed(vals[1..], now, k + 1, count - 1)
    ensures AllPassed(vals, now, k, count)
  {
    var tail := vals[1..];
    forall i | 0 < i < count
      ensures Passed(vals, now, k, i)
    {
      assert Passed(tail, now, k + 1, i - 1);
      assert tail[i - 1] == vals[i];
    }
  }

  /** One STA reading that is not 3 and comes within the deadline: the
      poll goes on with the rest of the script. */
  lemma PollStep(w: World, now: nat -> int, k: nat, vals: seq<int>)
    requires w.connected && Replies(w.inbox, vals) && |vals| > 0
    requires vals[0] != Active && !Overdue(now, k)
    ensures AwaitActive(w, now, k) == AwaitActive(Asked(w, "STA"), now, k + 1)
    ensures Replies(Asked(w, "STA").inbox, vals[1..])
  {
    Ask(w, "STA", vals);
    PollAgain(w, now, k, Asked(w, "STA"), vals[0]);
  }

  lemma ActiveAtOnce(w: World, now: nat -> int, k: nat)
    requires w.connected && Replies(w.inbox, [Active])
    ensures AwaitActive(w, now, k) == Run(Queried(w, "STA", 1), Success(()))
  {
    Ask(w, "STA", [Active]);
    QueriedOnce(w, "STA");
    PollDone(w, now, k, Asked(w, "STA"));
  }

  lemma ActiveAfterPass(w: World, now: nat -> int, k: nat, polls: seq<int>)
    requires w.connected && 0 < |polls| && AllPassed(polls, now, k, |polls|)
    requires Replies(w.inbox, polls + [Active])
    ensures AwaitActive(w, now, k) == AwaitActive(Asked(w, "STA"), now, k + 1)
    ensures Replies(Asked(w, "STA").inbox, polls[1..] + [Active])
    ensures AllPassed(polls[1..], now, k + 1, |polls| - 1)
    ensures |w.inbox| > |polls|
  {
    PassedTail(polls, now, k, |polls|);
    assert (polls + [Active])[0] == polls[0];
    assert (polls + [Active])[1..] == polls[1..] + [Active];
    PollStep(w, now, k, polls + [Active]);
  }

  /** Against a device whose STA readings pass within the deadline and then
      read 3, the poll succeeds after exactly those queries. */
  lemma {:induction false} AwaitActiveScripted(w: World, now: nat -> int, k: nat, polls: seq<int>)
    requires w.connected && AllPassed(polls, now, k, |polls|)
    requires Replies(w.inbox, polls + [Active])
    ensures AwaitActive(w, now, k) == Run(Queried(w, "STA", |polls| + 1), Success(()))
    decreases |polls|
  {
    if |polls| == 0 {
      assert polls + [Active] == [Active];
      ActiveAtOnce(w, now, k);
    } else {
      ActiveAfterPass(w, now, k, polls);
      AwaitActiveScripted(Asked(w, "STA"), now, k + 1, polls[1..]);
      QueriedMore(w, "STA", |polls[1..]| + 1);
    }
  }

  /** Against a device whose STA readings pass within the deadline and then
      give a reading other than 3 at the overdue clock reading `late`, the
      poll raises the activation timeout, having sent exactly one query per
      reading. */
  lemma {:induction false} AwaitActiveTimesOut(w: World, now: nat -> int, k: nat, polls: seq<int>, s: int, late: nat)
    requires w.connected && AllPassed(polls, now, k, |polls|)
    requires s != Active && late == k + |polls| && Overdue(now, late)
    requires Replies(w.inbox, polls + [s])
    ensures AwaitActive(w, now, k) == Run(Queried(w, "STA", |polls| + 1), Failure(ActivationTimeout))
    decreases |polls|
  {
    if |polls| == 0 {
      Ask(w, "STA", polls + [s]);
      QueriedOnce(w, "STA");
      PollLate(w, now, k, Asked(w, "STA"), s);
    } else {
      PassedTail(polls, now, k, |polls|);
      assert (polls + [s])[1..] == polls[1..] + [s];
      PollStep(w, now, k, polls + [s]);
      AwaitActiveTimesOut(Asked(w, "STA"), now, k + 1, polls[1..], s, late);
      QueriedMore(w, "STA", |polls[1..]| + 1);
    }
  }

  /** What the STA poll started at clock reading `k` may have done once it
      has consumed the first `n` of the readings `vals`: succeeded on the
      first 3, raised the activation timeout on the first late reading, or
      timed out reading with every reading passed. */
  predicate ActiveOutcome(vals: seq<int>, now: nat -> int, k: nat, n: int, r: Result<()>) {
    && 0 <= n <= |vals|
    && (r.Success? ==> 0 < n && AllPassed(vals, now, k, n - 1) && vals[n - 1] == Active)
    && (r == Failure(ActivationTimeout) ==>
          0 < n && AllPassed(vals, now, k, n - 1) && vals[n - 1] != Active
          && Overdue(now, k + n - 1))
    && (r.Failure? && r.error != ActivationTimeout ==>
          r.error == ReadTimeout && n == |vals| && AllPassed(vals, now, k, n))
  }

  predicate PollOk(before: nat, r: Run<()>, vals: seq<int>, now: nat -> int, k: nat) {
    ActiveOutcome(vals, now, k, before - |r.world.inbox|, r.result)
  }

  lemma ActiveShift(vals: seq<int>, now: nat -> int, k: nat, a: nat, b: nat, r: Run<()>)
    requires a == b + 1 && 0 < |vals| && Passed(vals, now, k, 0)
    requires PollOk(b, r, vals[1..], now, k + 1)
    ensures PollOk(a, r, vals, now, k)
  {
    var n := a - |r.world.inbox|;
    var t := vals[1..];
    assert 0 <= n - 1 <= |t|;
    if r.result.Success? || r.result == Failure(ActivationTimeout) {
      assert 0 < n - 1;
      PassedCons(vals, now, k, n - 1);
      assert t[n - 2] == vals[n - 1];
      assert k + 1 + (n - 1) - 1 == k + n - 1;
    } else if r.result.Failure? {
      PassedCons(vals, now, k, n);
    }
  }
  /** Whatever values the device reports, each in a well-formed reply that
      arrives in one recv, the STA poll ends as `ActiveOutcome` says. */
  lemma {:induction false} AwaitActiveExit(w: World, now: nat -> int, k: nat, vals: seq<int>)
    requires w.connected && |vals| == |w.inbox| && Replies(w.inbox, vals)
    ensures PollOk(|w.inbox|, AwaitActive(w, now, k), vals, now, k)
    decreases |w.inbox|
  {
    if |w.inbox| == 0 {
      PollSilent(w, now, k, vals);
    } else if vals[0] == Active || Overdue(now, k) {
      PollStops(w, now, k, vals);
    } else {
      var w1 := Asked(w, "STA");
      Ask(w, "STA", vals);
      PollAgain(w, now, k, w1, vals[0]);
      AwaitActiveExit(w1, now, k + 1, vals[1..]);
      assert Passed(vals, now, k, 0);
      ActiveShift(vals, now, k, |w.inbox|, |w1.inbox|, AwaitActive(w1, now, k + 1));
    }
  }

  lemma PollSilent(w: World, now: nat -> int, k: nat, vals: seq<int>)
    requires w.connected && |vals| == |w.inbox| == 0
    ensures PollOk(|w.inbox|, AwaitActive(w, now, k), vals, now, k)
  {
    var w1 := w.(sent := w.sent + [GetFrame("STA")]);
    AskSilent(w, "STA");
    PollFails(w, now, k, w1, ReadTimeout);
    SilentOutcome(vals, now, k, AwaitActive(w, now, k));
  }

  lemma SilentOutcome(vals: seq<int>, now: nat -> int, k: nat, r: Run<()>)
    requires |vals| == 0 && r.result == Failure(ReadTimeout) && |r.world.inbox| == 0
    ensures PollOk(0, r, vals, now, k)
  {
  }

  lemma PollStops(w: World, now: nat -> int, k: nat, vals: seq<int>)
    requires w.connected && |vals| == |w.inbox| > 0 && Replies(w.inbox, vals)
    requires vals[0] == Active || Overdue(now, k)
    ensures PollOk(|w.inbox|, AwaitActive(w, now, k), vals, now, k)
  {
    var w1 := Asked(w, "STA");
    Ask(w, "STA", vals);
    if vals[0] == Active {
      PollDone(w, now, k, w1);
    } else {
      PollLate(w, now, k, w1, vals[0]);
    }
    StopOutcome(vals, now, k, |w.inbox|, AwaitActive(w, now, k));
  }

  lemma StopOutcome(vals: seq<int>, now: nat -> int, k: nat, before: nat, r: Run<()>)
    requires |vals| == before > 0 && |r.world.inbox| == before - 1
    requires vals[0] == Active ==> r.result == Success(())
    requires vals[0] != Active ==> r.result == Failure(ActivationTimeout) && Overdue(now, k)
    ensures PollOk(before, r, vals, now, k)
  {
  }

  lemma ActivateSkips(w: World, now: nat -> int, w1: World)
    requires Get(w, "STA") == Run(w1, Success(Active))
    ensures Activate(w, now) == Run(w1, Success(()))
  {
  }

  /** A device that already reports status 3 is left alone: one STA query
      and nothing else is sent. */
  lemma ActivateWhenActive(w: World, now: nat -> int, vals: seq<int>)
    requires w.connected && Replies(w.inbox, vals) && |vals| > 0 && vals[0] == Active
    ensures Activate(w, now) == Run(w.(sent := w.sent + [GetFrame("STA")], inbox := w.inbox[1..]), Success(()))
  {
    Ask(w, "STA", vals);
    ActivateSkips(w, now, Asked(w, "STA"));
  }

  lemma ActivateChain(w: World, now: nat -> int, w1: World, s: int, w2: World, w3: World)
    requires Get(w, "STA") == Run(w1, Success(s)) && s != Active
    requires Reset(w1) == Run(w2, Success(()))
    requires Set(w2, "ACT", 1) == Run(w3, Success(()))
    ensures Activate(w, now) == AwaitActive(w3, now, 1)
  {
  }

  /** The frames of an activation from a status other than 3, up to the
      start of the STA poll: the first STA query, the reset with its
      unconfirmed passes `rs`, and ACT 1. */
  function Reactivation(rs: seq<ResetRound>): seq<string> {
    [GetFrame("STA"), SetFrame("ACT", 0)] + RetryFrames(rs) + Confirmation + [SetFrame("ACT", 1)]
  }

  /** The readings up to the start of the STA poll: the first status, the
      readings of the unconfirmed passes, and the confirming ACT 0, STA 0. */
  function ReactivationReadings(s: int, rs: seq<ResetRound>): seq<int> {
    [s] + RetryReadings(rs) + [0, 0]
  }

  /** The world when the STA poll of an activation starts. */
  function Reactivated(w: World, rs: seq<ResetRound>): World
    requires |RetryReadings(rs)| + 3 <= |w.inbox|
  {
    w.(sent := w.sent + Reactivation(rs), inbox := w.inbox[|RetryReadings(rs)| + 3..])
  }

  lemma ReactivatedWorld(w: World, rs: seq<ResetRound>)
    requires |RetryReadings(rs)| + 3 <= |w.inbox|
    ensures var w1 := Asked(w, "STA");
      var w2 := w1.(sent := w1.sent + [SetFrame("ACT", 0)] + RetryFrames(rs) + Confirmation,
                    inbox := w1.inbox[|RetryReadings(rs)| + 2..]);
      w2.(sent := w2.sent + [SetFrame("ACT", 1)]) == Reactivated(w, rs)
  {
    assert w.inbox[1..][|RetryReadings(rs)| + 2..] == w.inbox[|RetryReadings(rs)| + 3..];
  }

  /** From a status other than 3, a reset confirmed after the passes `rs`
      hands over to the STA poll, with the frames of `Reactivation` sent. */
  lemma ActivateReaches(w: World, now: nat -> int, s: int, rs: seq<ResetRound>)
    requires w.connected && s != Active && AllRetries(rs)
    requires Replies(w.inbox, ReactivationReadings(s, rs))
    ensures |RetryReadings(rs)| + 3 <= |w.inbox|
    ensures Activate(w, now) == AwaitActive(Reactivated(w, rs), now, 1)
  {
    var pre := ReactivationReadings(s, rs);
    assert pre[1..] == RetryReadings(rs) + [0, 0];
    Ask(w, "STA", pre);
    var w1 := Asked(w, "STA");
    ResetScripted(w1, rs);
    var w2 := w1.(sent := w1.sent + [SetFrame("ACT", 0)] + RetryFrames(rs) + Confirmation,
                  inbox := w1.inbox[|RetryReadings(rs)| + 2..]);
    WriteAct(w2, 1);
    ReactivatedWorld(w, rs);
    ActivateChain(w, now, w1, s, w2, w2.(sent := w2.sent + [SetFrame("ACT", 1)]));
  }

  lemma ReactivationSplit(inbox: seq<Recv>, s: int, rs: seq<ResetRound>, tail: seq<int>)
    requires Replies(inbox, ReactivationReadings(s, rs) + tail)
    ensures Replies(inbox, ReactivationReadings(s, rs))
    ensures Replies(inbox[|RetryReadings(rs)| + 3..], tail)
  {
    RepliesSplit(inbox, ReactivationReadings(s, rs), tail);
  }

  /** The world after an activation through the reset passes `rs` whose
      STA poll took `n` readings. */
  function Activated(w: World, rs: seq<ResetRound>, n: nat): World
    requires |RetryReadings(rs)| + 3 + n <= |w.inbox|
  {
    w.(sent := w.sent + Reactivation(rs) + Queries("STA", n), inbox := w.inbox[|RetryReadings(rs)| + 3 + n..])
  }

  lemma ReactivatedPolled(w: World, rs: seq<ResetRound>, n: nat)
    requires |RetryReadings(rs)| + 3 + n <= |w.inbox|
    ensures Queried(Reactivated(w, rs), "STA", n) == Activated(w, rs, n)
  {
    assert w.inbox[|RetryReadings(rs)| + 3..][n..] == w.inbox[|RetryReadings(rs)| + 3 + n..];
  }

  /** Activation from a status `s` other than 3: the reset is confirmed
      after the unconfirmed passes `rs`, ACT 1 is written, and the STA poll
      sees the readings `polls` within the deadline and then 3. Exactly the
      frames of `Reactivation` and one STA query per poll reading are sent. */
  lemma ActivateScripted(w: World, now: nat -> int, s: int, rs: seq<ResetRound>, polls: seq<int>)
    requires w.connected && s != Active && AllRetries(rs) && AllPassed(polls, now, 1, |polls|)
    requires Replies(w.inbox, ReactivationReadings(s, rs) + (polls + [Active]))
    ensures |RetryReadings(rs)| + 3 + (|polls| + 1) <= |w.inbox|
    ensures Activate(w, now) == Run(Activated(w, rs, |polls| + 1), Success(()))
  {
    ReactivationSplit(w.inbox, s, rs, polls + [Active]);
    ActivateReaches(w, now, s, rs);
    AwaitActiveScripted(Reactivated(w, rs), now, 1, polls);
    ReactivatedPolled(w, rs, |polls| + 1);
  }

  /** Activation that runs out of time: after the reset and ACT 1, the STA
      poll sees the readings `polls` within the deadline and then a reading
      `late` other than 3 at an overdue clock reading; the activation
      timeout is raised with one STA query per poll reading sent. */
  lemma ActivateTimesOut(w: World, now: nat -> int, s: int, rs: seq<ResetRound>, polls: seq<int>, late: int)
    requires w.connected && s != Active && AllRetries(rs) && AllPassed(polls, now, 1, |polls|)
    requires late != Active && Overdue(now, 1 + |polls|)
    requires Replies(w.inbox, ReactivationReadings(s, rs) + (polls + [late]))
    ensures |RetryReadings(rs)| + 3 + (|polls| + 1) <= |w.inbox|
    ensures Activate(w, now) == Run(Activated(w, rs, |polls| + 1), Failure(ActivationTimeout))
  {
    ReactivationSplit(w.inbox, s, rs, polls + [late]);
    ActivateReaches(w, now, s, rs);
    AwaitActiveTimesOut(Reactivated(w, rs), now, 1, polls, late, 1 + |polls|);
    ReactivatedPolled(w, rs, |polls| + 1);
  }
}

=== FILE: ascii.dfy ===
/**
 The text layer the protocol rides on: ASCII bytes, Python's whitespace
 classification, `str.upper`, `str.strip`, `str.split()` and the ASCII
 codec, all restricted to the 7-bit range the wire uses.
 */
module Ascii {
  import opened Results

  type Byte = b: int | 0 <= b < 256

  const Newline: Byte := 10

  predicate IsAsciiChar(c: char) {
    c as int < 128
  }

  predicate IsAscii(s: string) {
    forall i | 0 <= i < |s| :: IsAsciiChar(s[i])
  }

  /** Whitespace as Python's `str.isspace` sees it within ASCII: tab, line
      feed, vertical tab, form feed and carriage return (9-13), the four
      information separators (28-31) and space (32). */
  predicate IsSpace(c: char) {
    9 <= c as int <= 13 || 28 <= c as int <= 32
  }

  predicate NoSpace(s: string) {
    forall i | 0 <= i < |s| :: !IsSpace(s[i])
  }

  /** A non-empty run of non-whitespace characters: one item of `str.split()`. */
  predicate IsWord(s: string) {
    |s| > 0 && NoSpace(s)
  }

  predicate IsLower(c: char) {
    'a' <= c <= 'z'
  }

  function UpperChar(c: char): char {
    if IsLower(c) then (c as int - 32) as char else c
  }

  /** `str.upper()` on the ASCII range: lower-case letters become capitals,
      every other character is kept. */
  function Upper(s: string): (r: string)
    ensures |r| == |s|
    ensures forall i | 0 <= i < |r| :: !IsLower(r[i])
    ensures forall i | 0 <= i < |s| :: IsLower(s[i]) ==> r[i] as int == s[i] as int - 32
    ensures forall i | 0 <= i < |s| :: !IsLower(s[i]) ==> r[i] == s[i]
  {
    seq(|s|, i requires 0 <= i < |s| => UpperChar(s[i]))
  }

  /** Upper-casing neither creates nor removes whitespace or non-ASCII
      characters, so a parameter name stays one ASCII word. */
  lemma UpperKeepsShape(s: string)
    ensures IsAscii(Upper(s)) <==> IsAscii(s)
    ensures NoSpace(Upper(s)) <==> NoSpace(s)
    ensures IsWord(Upper(s)) <==> IsWord(s)
    ensures Upper(Upper(s)) == Upper(s)
  {
    var u := Upper(s);
    assert forall i | 0 <= i < |s| :: IsAsciiChar(u[i]) == IsAsciiChar(s[i]) && IsSpace(u[i]) == IsSpace(s[i]);
    assert Upper(u) == u;
  }

  lemma AsciiAppend(a: string, b: string)
    ensures IsAscii(a + b) <==> IsAscii(a) && IsAscii(b)
  {
    var s := a + b;
    assert forall i | 0 <= i < |a| :: s[i] == a[i];
    assert forall i | 0 <= i < |b| :: s[|a| + i] == b[i];
    if IsAscii(a) && IsAscii(b) {
      forall i | 0 <= i < |s|
        ensures IsAsciiChar(s[i])
      {
        if i >= |a| {
          assert s[i] == b[i - |a|];
        }
      }
    }
  }

  /** A newline is whitespace, so a word never contains one. */
  lemma NoSpaceNoNewline(s: string)
    requires NoSpace(s)
    ensures '\n' !in s
  {
    assert forall i | 0 <= i < |s| :: s[i] != '\n';
  }

  /** `str.encode('ascii')` of a string already known to be ASCII. */
  function Encode(s: string): (bs: seq<Byte>)
    requires IsAscii(s)
    ensures |bs| == |s|
    ensures forall i | 0 <= i < |s| :: bs[i] == s[i] as int
  {
    seq(|s|, i requires 0 <= i < |s| => s[i] as int)
  }

  /** `bytes.decode('ascii')`: fails as soon as one byte is 0x80 or above. */
  function Decode(bs: seq<Byte>): (r: Option<string>)
    ensures r.Some? <==> forall i | 0 <= i < |bs| :: bs[i] < 128
    ensures r.Some? ==> |r.value| == |bs| && IsAscii(r.value)
    ensures r.Some? ==> forall i | 0 <= i < |bs| :: r.value[i] as int == bs[i]
  {
    if forall i | 0 <= i < |bs| :: bs[i] < 128 then
      Some(seq(|bs|, i requires 0 <= i < |bs| && bs[i] < 128 => bs[i] as char))
    else
      None
  }

  /** The codec round trip: decoding the encoding of ASCII text gives it back. */
  lemma DecodeEncode(s: string)
    requires IsAscii(s)
    ensures Decode(Encode(s)) == Some(s)
  {
    var d := Decode(Encode(s));
    assert d.Some?;
    assert d.value == s;
  }

  function TrimLeft(s: string): (r: string)
    ensures |r| <= |s| && r == s[|s| - |r|..]
    ensures forall i | 0 <= i < |s| - |r| :: IsSpace(s[i])
    ensures |r| > 0 ==> !IsSpace(r[0])
    decreases |s|
  {
    if |s| > 0 && IsSpace(s[0]) then TrimLeft(s[1..]) else s
  }

  function TrimRight(s: string): (r: string)
    ensures |r| <= |s| && r == s[..|r|]
    ensures forall i | |r| <= i < |s| :: IsSpace(s[i])
    ensures |r| > 0 ==> !IsSpace(r[|r| - 1])
    decreases |s|
  {
    if |s| > 0 && IsSpace(s[|s| - 1]) then TrimRight(s[..|s| - 1]) else s
  }

  /** `str.strip()`: the result is the part of `s` between a whitespace-only
      prefix and a whitespace-only suffix, and it neither starts nor ends
      with whitespace. */
  function Strip(s: string): (r: string)
    ensures |r| <= |s|
    ensures |r| > 0 ==> !IsSpace(r[0]) && !IsSpace(r[|r| - 1])
    ensures exists a | 0 <= a <= |s| - |r| :: StrippedAt(s, r, a)
  {
    var t := TrimRight(s);
    var r := TrimLeft(t);
    StripParts(s, t, r);
    r
  }

  /** Trimming the right end and then the left leaves the middle of `s`. */
  lemma StripParts(s: string, t: string, r: string)
    requires |t| <= |s| && t == s[..|t|] && forall i | |t| <= i < |s| :: IsSpace(s[i])
    requires |t| > 0 ==> !IsSpace(t[|t| - 1])
    requires |r| <= |t| && r == t[|t| - |r|..] && forall i | 0 <= i < |t| - |r| :: IsSpace(t[i])
    ensures |r| > 0 ==> !IsSpace(r[|r| - 1])
    ensures 0 <= |t| - |r| <= |s| - |r| && StrippedAt(s, r, |t| - |r|)
  {
    var a := |t| - |r|;
    if |r| > 0 {
      assert r[|r| - 1] == t[|t| - 1];
    }
    assert r == s[a..a + |r|];
    forall i | 0 <= i < a
      ensures IsSpace(s[i])
    {
      assert s[i] == t[i];
    }
  }

  /** `r` occurs in `s` at offset `a` with only whitespace around it. */
  predicate StrippedAt(s: string, r: string, a: int)
    requires 0 <= a <= |s| - |r|
  {
    && r == s[a..a + |r|]
    && (forall i | 0 <= i < a :: IsSpace(s[i]))
    && (forall i | a + |r| <= i < |s| :: IsSpace(s[i]))
  }

  /** Text that already has no whitespace at either end is left as it is. */
  lemma StripClean(s: string)
    requires |s| > 0 && !IsSpace(s[0]) && !IsSpace(s[|s| - 1])
    ensures Strip(s) == s
  {
  }

  /** The length of the leading run of non-whitespace characters. */
  function WordEnd(s: string): (n: nat)
    ensures n <= |s|
    ensures NoSpace(s[..n])
    ensures n < |s| ==> IsSpace(s[n])
    ensures |s| > 0 && !IsSpace(s[0]) ==> n > 0
    decreases |s|
  {
    if |s| == 0 || IsSpace(s[0]) then 0
    else
      var n := 1 + WordEnd(s[1..]);
      assert s[..n] == [s[0]] + s[1..][..n - 1];
      n
  }

  /** `str.split()` with no separator: the maximal runs of non-whitespace
      characters, in order. */
  function Tokens(s: string): (ts: seq<string>)
    ensures forall i | 0 <= i < |ts| :: IsWord(ts[i])
    decreases |s|
  {
    var t := TrimLeft(s);
    if |t| == 0 then []
    else
      var n := WordEnd(t);
      var w := t[..n];
      var rest := Tokens(t[n..]);
      ConsWords(w, rest);
      [w] + rest
  }

  lemma ConsWords(w: string, rest: seq<string>)
    requires IsWord(w) && forall i | 0 <= i < |rest| :: IsWord(rest[i])
    ensures forall i | 0 <= i < 1 + |rest| :: IsWord(([w] + rest)[i])
  {
    forall i | 0 < i < 1 + |rest|
      ensures IsWord(([w] + rest)[i])
    {
      assert ([w] + rest)[i] == rest[i - 1];
    }
  }

  /** Words separated by single spaces, the inverse of `Tokens`. */
  function Join(ts: seq<string>): string
  {
    if |ts| == 0 then ""
    else if |ts| == 1 then ts[0]
    else ts[0] + " " + Join(ts[1..])
  }

  lemma WordEndOfWord(w: string, rest: string)
    requires NoSpace(w)
    requires |rest| == 0 || IsSpace(rest[0])
    ensures WordEnd(w + rest) == |w|
    decreases |w|
  {
    if |w| > 0 {
      assert (w + rest)[1..] == w[1..] + rest;
      WordEndOfWord(w[1..], rest);
    } else {
      assert w + rest == rest;
    }
  }

  lemma JoinStartsWithWord(ts: seq<string>)
    requires |ts| > 0
    requires forall i | 0 <= i < |ts| :: IsWord(ts[i])
    ensures |Join(ts)| > 0 && !IsSpace(Join(ts)[0])
  {
    if |ts| > 1 {
      assert Join(ts)[0] == ts[0][0];
    }
  }

  lemma TokensAfterSpace(s: string)
    requires |s| > 0 && IsSpace(s[0])
    ensures Tokens(s) == Tokens(s[1..])
  {
  }

  lemma TokensOfWord(w: string)
    requires IsWord(w)
    ensures Tokens(w) == [w]
  {
    assert TrimLeft(w) == w;
    WordEndOfWord(w, "");
    assert w + "" == w;
    assert w[..|w|] == w;
    assert Tokens(w[|w|..]) == [];
  }

  lemma TokensOfWordThen(w: string, j: string)
    requires IsWord(w)
    ensures Tokens(w + " " + j) == [w] + Tokens(j)
  {
    var s := w + " " + j;
    assert TrimLeft(s) == s;
    assert s == w + (" " + j);
    WordEndOfWord(w, " " + j);
    assert s[..|w|] == w;
    assert s[|w|..] == " " + j;
    TokensAfterSpace(" " + j);
    assert (" " + j)[1..] == j;
  }

  /** Splitting words joined by spaces gives the words back. */
  lemma {:induction false} TokensOfJoin(ts: seq<string>)
    requires forall i | 0 <= i < |ts| :: IsWord(ts[i])
    ensures Tokens(Join(ts)) == ts
    decreases |ts|
  {
    if |ts| == 1 {
      TokensOfWord(ts[0]);
    } else if |ts| > 1 {
      TokensOfWordThen(ts[0], Join(ts[1..]));
      TokensOfJoin(ts[1..]);
      assert ts == [ts[0]] + ts[1..];
    }
  }
  /** Only whitespace, possibly none. */
  predicate IsBlank(g: string) {
    forall i | 0 <= i < |g| :: IsSpace(g[i])
  }

  /** `gaps` can lay out `n` words: `n + 1` runs of whitespace, those
      between two words non-empty, the leading and trailing ones possibly
      empty. */
  predicate Separators(gaps: seq<string>, n: nat) {
    && |gaps| == n + 1
    && (forall i | 0 <= i < |gaps| :: IsBlank(gaps[i]))
    && (forall i | 0 < i < n :: |gaps[i]| > 0)
  }

  /** The words `ts` laid out with `gaps` around and between them:
      `gaps[0] + ts[0] + gaps[1] + ... + ts[n - 1] + gaps[n]`. */
  function Spread(ts: seq<string>, gaps: seq<string>): string
    requires |gaps| == |ts| + 1
    decreases |ts|
  {
    if |ts| == 0 then gaps[0] else gaps[0] + ts[0] + Spread(ts[1..], gaps[1..])
  }

  lemma {:induction false} TokensAfterBlank(g: string, x: string)
    requires IsBlank(g)
    ensures Tokens(g + x) == Tokens(x)
    decreases |g|
  {
    if |g| > 0 {
      var h := g[1..];
      assert IsBlank(h) by {
        forall i | 0 <= i < |h|
          ensures IsSpace(h[i])
        {
          assert h[i] == g[i + 1];
        }
      }
      assert (g + x)[0] == g[0] && (g + x)[1..] == h + x;
      TokensAfterSpace(g + x);
      TokensAfterBlank(h, x);
    } else {
      assert g + x == x;
    }
  }

  lemma TokensOfWordRest(w: string, rest: string)
    requires IsWord(w) && (|rest| == 0 || IsSpace(rest[0]))
    ensures Tokens(w + rest) == [w] + Tokens(rest)
  {
    var s := w + rest;
    assert s[0] == w[0];
    assert TrimLeft(s) == s;
    WordEndOfWord(w, rest);
    assert s[..|w|] == w;
    assert s[|w|..] == rest;
  }

  lemma SpreadStartsBlank(ts: seq<string>, gaps: seq<string>)
    requires |gaps| == |ts| + 1 && IsBlank(gaps[0])
    requires |ts| > 0 ==> |gaps[0]| > 0
    ensures |Spread(ts, gaps)| == 0 || IsSpace(Spread(ts, gaps)[0])
  {
    if |gaps[0]| > 0 {
      assert Spread(ts, gaps)[0] == gaps[0][0];
    }
  }

  lemma SeparatorsTail(gaps: seq<string>, n: nat)
    requires n > 0 && Separators(gaps, n)
    ensures Separators(gaps[1..], n - 1)
    ensures IsBlank(gaps[0]) && IsBlank(gaps[1])
    ensures n > 1 ==> |gaps[1]| > 0
  {
    forall i | 0 <= i < n
      ensures IsBlank(gaps[1..][i])
    {
      assert gaps[1..][i] == gaps[i + 1];
    }
    forall i | 0 < i < n - 1
      ensures |gaps[1..][i]| > 0
    {
      assert gaps[1..][i] == gaps[i + 1];
    }
  }

  lemma SeparatorsCons(lead: string, gaps: seq<string>, n: nat)
    requires IsBlank(lead) && Separators(gaps, n)
    requires n > 0 ==> |gaps[0]| > 0
    ensures Separators([lead] + gaps, n + 1)
  {
    var hs := [lead] + gaps;
    forall i | 0 < i < |hs|
      ensures IsBlank(hs[i]) && (i < n + 1 ==> |hs[i]| > 0)
    {
      assert hs[i] == gaps[i - 1];
    }
  }

  lemma WordsTail(ts: seq<string>)
    requires |ts| > 0 && forall i | 0 <= i < |ts| :: IsWord(ts[i])
    ensures IsWord(ts[0]) && forall i | 0 <= i < |ts| - 1 :: IsWord(ts[1..][i])
  {
    assert forall i | 0 <= i < |ts| - 1 :: ts[1..][i] == ts[i + 1];
  }

  /** The first word of a layout and the blank before it do not reach into
      the rest. */
  lemma SpreadStep(ts: seq<string>, gaps: seq<string>)
    requires |ts| > 0 && |gaps| == |ts| + 1 && IsWord(ts[0])
    requires IsBlank(gaps[0]) && IsBlank(gaps[1]) && (|ts| > 1 ==> |gaps[1]| > 0)
    ensures Tokens(Spread(ts, gaps)) == [ts[0]] + Tokens(Spread(ts[1..], gaps[1..]))
  {
    var rest := Spread(ts[1..], gaps[1..]);
    assert Spread(ts, gaps) == gaps[0] + (ts[0] + rest);
    assert gaps[1..][0] == gaps[1];
    SpreadStartsBlank(ts[1..], gaps[1..]);
    TokensOfWordRest(ts[0], rest);
    TokensAfterBlank(gaps[0], ts[0] + rest);
  }

  lemma TokensOfBlank(g: string)
    requires IsBlank(g)
    ensures Tokens(g) == []
  {
    TrimBlank(g);
  }

  lemma {:induction false} TrimBlank(g: string)
    requires IsBlank(g)
    ensures TrimLeft(g) == ""
    decreases |g|
  {
    if |g| > 0 {
      assert forall i | 0 <= i < |g| - 1 :: g[1..][i] == g[i + 1];
      TrimBlank(g[1..]);
    }
  }

  /** Splitting words laid out with any whitespace between and around them
      gives the words back: tabs, runs of blanks and blanks at either end
      make no difference. */
  lemma {:induction false} TokensOfSpread(ts: seq<string>, gaps: seq<string>)
    requires forall i | 0 <= i < |ts| :: IsWord(ts[i])
    requires Separators(gaps, |ts|)
    ensures Tokens(Spread(ts, gaps)) == ts
    decreases |ts|
  {
    if |ts| == 0 {
      TokensOfBlank(gaps[0]);
    } else {
      SeparatorsTail(gaps, |ts|);
      WordsTail(ts);
      TokensOfSpread(ts[1..], gaps[1..]);
      SpreadStep(ts, gaps);
      assert ts == [ts[0]] + ts[1..];
    }
  }

  /** `TrimLeft` removes a blank prefix. */
  lemma TrimSplit(s: string) returns (lead: string)
    ensures s == lead + TrimLeft(s) && IsBlank(lead)
    ensures |s| > 0 && IsSpace(s[0]) && |TrimLeft(s)| > 0 ==> |lead| > 0
  {
    var t := TrimLeft(s);
    lead := s[..|s| - |t|];
    assert forall i | 0 <= i < |lead| :: lead[i] == s[i];
  }

  /** `WordEnd` cuts a text that starts with a word into that word and a
      rest that is empty or starts with whitespace. */
  lemma WordSplit(t: string) returns (w: string, rest: string)
    requires |t| > 0 && !IsSpace(t[0])
    ensures w == t[..WordEnd(t)] && rest == t[WordEnd(t)..]
    ensures t == w + rest && IsWord(w) && (|rest| == 0 || IsSpace(rest[0]))
  {
    var n := WordEnd(t);
    w, rest := t[..n], t[n..];
    if n < |t| {
      assert rest[0] == t[n];
    }
  }

  /** The first step of `Tokens` on a text that is not blank: the leading
      blank, the first word, and the rest starting at a blank or empty. */
  lemma TokensFirst(s: string) returns (lead: string, w: string, rest: string)
    requires |TrimLeft(s)| > 0
    ensures s == lead + (w + rest) && |rest| < |s|
    ensures IsBlank(lead) && IsWord(w) && (|rest| == 0 || IsSpace(rest[0]))
    ensures |s| > 0 && IsSpace(s[0]) ==> |lead| > 0
    ensures Tokens(s) == [w] + Tokens(rest)
  {
    lead := TrimSplit(s);
    w, rest := WordSplit(TrimLeft(s));
  }

  lemma TokensNone(s: string)
    requires |TrimLeft(s)| == 0
    ensures Tokens(s) == [] && IsBlank(s)
  {
  }

  lemma SpreadCons(lead: string, w: string, ts: seq<string>, gaps: seq<string>)
    requires |gaps| == |ts| + 1
    ensures Spread([w] + ts, [lead] + gaps) == lead + (w + Spread(ts, gaps))
  {
    assert ([w] + ts)[1..] == ts && ([lead] + gaps)[1..] == gaps;
  }

  /** Every text is its tokens laid out with whitespace: splitting drops
      whitespace only, and neither cuts nor merges a word. */
  lemma {:induction false} SpreadOfTokens(s: string) returns (gaps: seq<string>)
    ensures Separators(gaps, |Tokens(s)|)
    ensures Spread(Tokens(s), gaps) == s
    ensures |s| > 0 && IsSpace(s[0]) ==> |gaps[0]| > 0
    decreases |s|
  {
    if |TrimLeft(s)| == 0 {
      TokensNone(s);
      gaps := [s];
    } else {
      var lead, w, rest := TokensFirst(s);
      var g := SpreadOfTokens(rest);
      if |rest| == 0 {
        assert Tokens(rest) == [];
      }
      SeparatorsCons(lead, g, |Tokens(rest)|);
      SpreadCons(lead, w, Tokens(rest), g);
      gaps := [lead] + g;
    }
  }
}

=== FILE: connect_as_written.dfy ===
/**
 `connect` exactly as the client writes it, on the socket attribute itself
 rather than on a connection flag. The attribute is cleared only when the
 connect call times out or is refused; any other socket error leaves the
 fresh, unconnected socket in place, and every later check treats a
 present socket as a live connection.
 */
module ConnectAsWritten {
  import opened Results
  import Transport

  /** The client's socket attribute: none, a socket whose connect call
      failed with an error other than refusal or timeout, or a connected
      socket. */
  datatype Handle = NoSocket | Unconnected | Live

  /** The test `if self._client_socket:` that `connect`, `disconnect`,
      `_send_command` and `_read_response` make: any socket object passes. */
  predicate Present(h: Handle) {
    h != NoSocket
  }

  /** `connect` as written. */
  function Connect(h: Handle, a: Transport.Attempt): (r: (Handle, Result<()>))
    ensures Present(h) ==> r == (h, Success(()))
    ensures !Present(h) ==> (r.1.Success? <==> a == Transport.Accepted)
    ensures !Present(h) && a == Transport.Unreachable ==> r == (Unconnected, Failure(ConnectOsError))
  {
    if Present(h) then (h, Success(()))
    else
      match a
      case Accepted => (Live, Success(()))
      case Refused => (NoSocket, Failure(ConnectFailed))
      case ConnectTimedOut => (NoSocket, Failure(ConnectFailed))
      case Unreachable => (Unconnected, Failure(ConnectOsError))
  }

  /** `disconnect` as written: closes whatever socket object is held. */
  function Disconnect(h: Handle): (r: Handle)
    ensures !Present(r)
  {
    NoSocket
  }

  /** The handle the connection flag of `Transport.World` stands for. */
  function Abstract(connected: bool): Handle {
    if connected then Live else NoSocket
  }

  /** Away from the unhandled socket errors the source and the corrected
      model agree: same result, and the handle is the one the corrected
      model's connection flag stands for. */
  lemma AgreesOnHandledAttempts(w: Transport.World, a: Transport.Attempt)
    requires a != Transport.Unreachable
    ensures var r := Transport.Connect(w, a);
      Connect(Abstract(w.connected), a) == (Abstract(r.world.connected), r.result)
  {
  }

  /** The stale socket: after an unhandled socket error, a second `connect`
      against a device that would now accept reports success without
      connecting, and the not-connected checks of the send and read helpers
      pass on a socket that cannot carry a frame. */
  lemma StaleSocket()
    ensures var (h1, r1) := Connect(NoSocket, Transport.Unreachable);
      var (h2, r2) := Connect(h1, Transport.Accepted);
      && r1 == Failure(ConnectOsError)
      && r2 == Success(())
      && h2 != Live
      && Present(h2)
  {
  }

  /** In the corrected model the same sequence connects: the failed attempt
      leaves the client Disconnected, so the retry performs a handshake. */
  lemma RetryAfterSocketError(w: Transport.World)
    requires !w.connected
    ensures var r1 := Transport.Connect(w, Transport.Unreachable);
      var r2 := Transport.Connect(r1.world, Transport.Accepted);
      && r1.result == Failure(ConnectOsError)
      && !r1.world.connected
      && r2.result == Success(())
      && r2.world.connected
  {
  }
}

=== FILE: frames.dfy ===
/**
 The command/response frames of the gripper's line protocol: the two
 command frames the client builds, how a device reads such a frame, and
 how the client interprets the line answering a GET.
 */
module Frames {
  import opened Results
  import opened Ascii
  import opened Numerals

  /** A command as the device understands it. */
  datatype Command = SetCmd(name: string, value: int) | GetCmd(name: string)

  /** The frame `SET` sends: the upper-cased parameter name and the decimal
      value, space separated, newline terminated. */
  function SetFrame(name: string, val: int): string {
    "SET " + Upper(name) + " " + Decimal(val) + "\n"
  }

  /** The frame `GET` sends. */
  function GetFrame(name: string): string {
    "GET " + Upper(name) + "\n"
  }

  /** The device's reading of one frame: a single newline-terminated line
      whose tokens are `SET <name> <int>` or `GET <name>`. */
  function ParseFrame(f: string): Option<Command> {
    if |f| == 0 || f[|f| - 1] != '\n' || '\n' in f[..|f| - 1] then None
    else ParseCommandLine(f[..|f| - 1])
  }

  function ParseCommandLine(line: string): Option<Command> {
    var ts := Tokens(line);
    if |ts| == 3 && ts[0] == "SET" && ParseInt(ts[2]).Some? then
      Some(SetCmd(ts[1], ParseInt(ts[2]).value))
    else if |ts| == 2 && ts[0] == "GET" then
      Some(GetCmd(ts[1]))
    else None
  }

  /** A SET frame is read by the device as exactly the command the caller
      meant, with the name upper-cased. */
  lemma SetFrameParses(name: string, val: int)
    requires IsWord(name)
    ensures ParseFrame(SetFrame(name, val)) == Some(SetCmd(Upper(name), val))
  {
    var ts := ["SET", Upper(name), Decimal(val)];
    SetFrameText(name, val);
    OneLine(Join(ts));
    TokensOfJoin(ts);
    ParseDecimal(val);
    assert ParseCommandLine(Join(ts)) == Some(SetCmd(Upper(name), val));
  }

  /** A SET frame is three words joined by single spaces, plus the newline. */
  lemma SetFrameText(name: string, val: int)
    requires IsWord(name)
    ensures var ts := ["SET", Upper(name), Decimal(val)];
      && (forall i | 0 <= i < |ts| :: IsWord(ts[i]))
      && '\n' !in Join(ts)
      && SetFrame(name, val) == Join(ts) + "\n"
  {
    var u := Upper(name);
    var d := Decimal(val);
    UpperKeepsShape(name);
    DecimalIsAsciiWord(val);
    NoSpaceNoNewline(u);
    NoSpaceNoNewline(d);
    assert Join([u, d]) == u + " " + d;
    assert ["SET", u, d][1..] == [u, d];
    assert Join(["SET", u, d]) == "SET " + u + " " + d;
  }

  /** A GET frame is read by the device as a query of the upper-cased name. */
  lemma GetFrameParses(name: string)
    requires IsWord(name)
    ensures ParseFrame(GetFrame(name)) == Some(GetCmd(Upper(name)))
  {
    var ts := ["GET", Upper(name)];
    GetFrameText(name);
    OneLine(Join(ts));
    TokensOfJoin(ts);
  }

  /** A GET frame is two words joined by a single space, plus the newline. */
  lemma GetFrameText(name: string)
    requires IsWord(name)
    ensures var ts := ["GET", Upper(name)];
      && (forall i | 0 <= i < |ts| :: IsWord(ts[i]))
      && '\n' !in Join(ts)
      && GetFrame(name) == Join(ts) + "\n"
  {
    var u := Upper(name);
    UpperKeepsShape(name);
    NoSpaceNoNewline(u);
    assert ["GET", u][1..] == [u];
    assert Join(["GET", u]) == "GET " + u;
  }

  /** Appending the newline to a line free of newlines gives a frame whose
      body is that line. */
  lemma OneLine(line: string)
    requires '\n' !in line
    ensures var f := line + "\n"; |f| > 0 && f[|f| - 1] == '\n' && f[..|f| - 1] == line
  {
    var f := line + "\n";
    assert f[..|f| - 1] == line;
  }

  /** Both frames are ASCII exactly when the parameter name is, so only a
      non-ASCII name can make `str.encode('ascii')` fail. */
  lemma FramesAscii(name: string, val: int)
    ensures IsAscii(SetFrame(name, val)) <==> IsAscii(name)
    ensures IsAscii(GetFrame(name)) <==> IsAscii(name)
  {
    var u := Upper(name);
    var d := Decimal(val);
    UpperKeepsShape(name);
    DecimalIsAsciiWord(val);
    assert IsAscii("SET ") && IsAscii("GET ") && IsAscii(" ") && IsAscii("\n");
    AsciiAppend("SET ", u);
    AsciiAppend("SET " + u, " ");
    AsciiAppend("SET " + u + " ", d);
    AsciiAppend("SET " + u + " " + d, "\n");
    AsciiAppend("GET ", u);
    AsciiAppend("GET " + u, "\n");
  }

  /** Every frame ends in a newline, and a name without a newline gives a
      frame with no other newline: one frame is one protocol line. */
  lemma FramesAreOneLine(name: string, val: int)
    requires '\n' !in name
    ensures var f := SetFrame(name, val); f[|f| - 1] == '\n' && '\n' !in f[..|f| - 1]
    ensures var g := GetFrame(name); g[|g| - 1] == '\n' && '\n' !in g[..|g| - 1]
  {
    var u := Upper(name);
    var d := Decimal(val);
    DecimalIsAsciiWord(val);
    assert '\n' !in u by {
      forall i | 0 <= i < |u|
        ensures u[i] != '\n'
      {
        assert name[i] != '\n';
      }
    }
    OneLine("SET " + u + " " + d);
    OneLine("GET " + u);
  }

  /** The client's reading of the line that answers a GET: at least two
      whitespace-separated tokens, the second of them an integer. */
  function ParseReply(line: string): (r: Result<int>)
    ensures r == Failure(MalformedReply) <==> |Tokens(line)| < 2
    ensures r == Failure(NotAnInteger) <==> |Tokens(line)| >= 2 && !IsIntLiteral(Tokens(line)[1])
    ensures r.Success? ==> |Tokens(line)| >= 2 && ParseInt(Tokens(line)[1]) == Some(r.value)
  {
    var parts := Tokens(line);
    if |parts| < 2 then Failure(MalformedReply)
    else
      match ParseInt(parts[1])
      case None => Failure(NotAnInteger)
      case Some(v) => Success(v)
  }

  /** A reply of the shape `<name> <value> ...` yields the value; any tokens
      after the second are ignored. */
  lemma ReplyValue(tag: string, val: int, extra: seq<string>)
    requires IsWord(tag)
    requires forall i | 0 <= i < |extra| :: IsWord(extra[i])
    ensures ParseReply(Join([tag, Decimal(val)] + extra)) == Success(val)
  {
    DecimalIsAsciiWord(val);
    var ts := [tag, Decimal(val)] + extra;
    assert forall i | 0 <= i < |ts| :: IsWord(ts[i]) by {
      forall i | 0 <= i < |ts|
        ensures IsWord(ts[i])
      {
        if i >= 2 {
          assert ts[i] == extra[i - 2];
        }
      }
    }
    TokensOfJoin(ts);
    assert ts[1] == Decimal(val);
    ParseDecimal(val);
  }

  lemma ReplyWords(tag: string, val: int, extra: seq<string>)
    requires IsWord(tag)
    requires forall i | 0 <= i < |extra| :: IsWord(extra[i])
    ensures forall i | 0 <= i < 2 + |extra| :: IsWord(([tag, Decimal(val)] + extra)[i])
  {
    DecimalIsAsciiWord(val);
    var ts := [tag, Decimal(val)] + extra;
    forall i | 2 <= i < |ts|
      ensures IsWord(ts[i])
    {
      assert ts[i] == extra[i - 2];
    }
  }

  lemma ParsesAs(line: string, ts: seq<string>, val: int)
    requires Tokens(line) == ts && |ts| >= 2 && ParseInt(ts[1]) == Some(val)
    ensures ParseReply(line) == Success(val)
  {
  }

  /** The same with any whitespace between, before and after the tokens. */
  lemma ReplyValueSpaced(tag: string, val: int, extra: seq<string>, gaps: seq<string>)
    requires IsWord(tag)
    requires forall i | 0 <= i < |extra| :: IsWord(extra[i])
    requires Separators(gaps, 2 + |extra|)
    ensures ParseReply(Spread([tag, Decimal(val)] + extra, gaps)) == Success(val)
  {
    var ts := [tag, Decimal(val)] + extra;
    ReplyWords(tag, val, extra);
    TokensOfSpread(ts, gaps);
    ParseDecimal(val);
    ParsesAs(Spread(ts, gaps), ts, val);
  }

  /** A reply holding a single token, or no token at all, is malformed. */
  lemma ShortReplyMalformed(line: string)
    requires NoSpace(line)
    ensures ParseReply(line) == Failure(MalformedReply)
  {
    if |line| > 0 {
      TokensOfWord(line);
    }
  }
}

=== FILE: motion.dfy ===
/**
 Motion commands: `move` with its clamping of position, speed and force to
 the register range, the two status loops it waits in (PRE until it echoes
 the target, OBJ while it reads "moving"), the closing GET POS, and the
 shorthands `grip`, `release` and `get_pos`.
 */
module Motion {
  import opened Results
  import opened Ascii
  import opened Frames
  import opened Transport
  import opened Protocol

  /** The largest value of the position, speed and force registers. */
  const RegisterMax := 255

  /** The OBJ value that means the fingers are still moving. */
  const Moving := 0

  /** `min(max(x, 0), 255)`: the nearest register value. */
  function Clamp(x: int): (r: int)
    ensures 0 <= r <= RegisterMax
    ensures 0 <= x <= RegisterMax ==> r == x
    ensures x < 0 ==> r == 0
    ensures x > RegisterMax ==> r == RegisterMax
  {
    if x < 0 then 0 else if x > RegisterMax then RegisterMax else x
  }

  /** When a status loop stops: once the reading equals a value (PRE), or
      once it differs from one (OBJ). */
  datatype Until = Equals(target: int) | Leaves(value: int)

  predicate Done(u: Until, v: int) {
    match u
    case Equals(t) => v == t
    case Leaves(x) => v != x
  }

  /** A status loop: GET `name` until the reading is `Done`. Only a failed
      GET ends it early. */
  function Await(w: World, name: string, u: Until): (r: Run<()>)
    ensures Follows(w, r.world)
    ensures !w.connected ==> r == Run(w, Failure(NotConnected))
    decreases |w.inbox|
  {
    var g := Get(w, name);
    match g.result
    case Failure(e) => Run(g.world, Failure(e))
    case Success(v) =>
      if Done(u, v) then Run(g.world, Success(()))
      else
        var r := Await(g.world, name, u);
        FollowsTransitive(w, g.world, r.world);
        r
  }

  /** The optional speed or force write of `move`: nothing for an absent
      argument, otherwise a SET of the clamped value. */
  function Configure(w: World, name: string, v: Option<int>): (r: Run<()>)
    ensures Follows(w, r.world) && r.world.inbox == w.inbox
    ensures r.result.Success? <==> v.None? || (w.connected && IsAscii(name))
    ensures r.result.Success? ==> r.world == w.(sent := w.sent + Setting(name, v))
    ensures r.result.Failure? ==> v.Some? && r.world == w
    ensures v.Some? && !w.connected ==> r == Run(w, Failure(NotConnected))
  {
    match v
    case None => Run(w, Success(()))
    case Some(x) => Set(w, name, Clamp(x))
  }

  /** The frame of an optional speed or force write. */
  function Setting(name: string, v: Option<int>): seq<string> {
    match v
    case None => []
    case Some(x) => [SetFrame(name, Clamp(x))]
  }

  /** The writes that start every move: speed and force when given, then
      the target position and the Go To command. */
  function Settings(p: int, speed: Option<int>, force: Option<int>): seq<string> {
    Setting("SPE", speed) + Setting("FOR", force) + [SetFrame("POS", p), SetFrame("GTO", 1)]
  }

  function Prepare(w: World, p: int, speed: Option<int>, force: Option<int>): (r: Run<()>)
    ensures Follows(w, r.world) && r.world.inbox == w.inbox
    ensures r.result.Success? <==> w.connected
    ensures !w.connected ==> r == Run(w, Failure(NotConnected))
  {
    ParameterNames();
    var s := Configure(w, "SPE", speed);
    match s.result
    case Failure(e) => Run(s.world, Failure(e))
    case Success(_) =>
      var f := Configure(s.world, "FOR", force);
      match f.result
      case Failure(e) => Run(f.world, Failure(e))
      case Success(_) =>
        var q := Set(f.world, "POS", p);
        match q.result
        case Failure(e) => Run(q.world, Failure(e))
        case Success(_) =>
          var r := Set(q.world, "GTO", 1);
          FollowsTransitive(w, s.world, f.world);
          FollowsTransitive(w, f.world, q.world);
          FollowsTransitive(w, q.world, r.world);
          r
  }

  /** `move`: clamp the inputs, write the settings, then `Complete`. */
  function Move(w: World, position: int, speed: Option<int>, force: Option<int>, block: bool): (r: Run<int>)
    ensures Follows(w, r.world)
    ensures !w.connected ==> r == Run(w, Failure(NotConnected))
    ensures w.connected ==> w.sent + Settings(Clamp(position), speed, force) <= r.world.sent
  {
    var p := Clamp(position);
    var prep := Prepare(w, p, speed, force);
    match prep.result
    case Failure(e) => Run(prep.world, Failure(e))
    case Success(_) =>
      PrepareSends(w, p, speed, force);
      var r := Complete(prep.world, p, block);
      FollowsTransitive(w, prep.world, r.world);
      r
  }

  /** An optional speed or force after `move` has clamped it. */
  function Clamped(v: Option<int>): Option<int> {
    match v
    case None => None
    case Some(x) => Some(Clamp(x))
  }

  /** Out-of-range arguments saturate: a move behaves exactly like the move
      to the nearest register value, with speed and force clamped the same
      way, so `move(-5)` is `move(0)` and `move(400)` is `move(255)`. */
  lemma MoveSaturates(w: World, position: int, speed: Option<int>, force: Option<int>, block: bool)
    ensures Move(w, position, speed, force, block) == Move(w, Clamp(position), Clamped(speed), Clamped(force), block)
  {
    var p := Clamp(position);
    assert Clamp(p) == p;
    ConfigureClamped(w, "SPE", speed);
    var s := Configure(w, "SPE", speed);
    if s.result.Success? {
      ConfigureClamped(s.world, "FOR", force);
    }
    assert Prepare(w, p, speed, force) == Prepare(w, p, Clamped(speed), Clamped(force));
  }

  lemma ConfigureClamped(w: World, name: string, v: Option<int>)
    ensures Configure(w, name, v) == Configure(w, name, Clamped(v))
  {
    if v.Some? {
      assert Clamp(Clamp(v.value)) == Clamp(v.value);
    }
  }

  /** The rest of `move` once the settings are written: wait until PRE
      echoes the target `p`, wait while OBJ reads "moving" when blocking,
      and return the position GET POS reports. */
  function Complete(w: World, p: int, block: bool): (r: Run<int>)
    ensures Follows(w, r.world)
  {
    var target := Await(w, "PRE", Equals(p));
    match target.result
    case Failure(e) => Run(target.world, Failure(e))
    case Success(_) =>
      var settled := Settle(target.world, block);
      match settled.result
      case Failure(e) => Run(settled.world, Failure(e))
      case Success(_) =>
        var r := Get(settled.world, "POS");
        FollowsTransitive(w, target.world, settled.world);
        FollowsTransitive(w, settled.world, r.world);
        r
  }

  /** The blocking wait of `move`: with `block`, poll OBJ until the gripper
      reports something other than "moving"; without it, nothing. */
  function Settle(w: World, block: bool): (r: Run<()>)
    ensures Follows(w, r.world)
    ensures !block ==> r == Run(w, Success(()))
  {
    if block then Await(w, "OBJ", Leaves(Moving)) else Run(w, Success(()))
  }

  /** `grip`: a move to the closed end with speed and force left as they
      are, so its first writes are POS 255 and Go To. */
  function Grip(w: World, block: bool): (r: Run<int>)
    ensures Follows(w, r.world)
    ensures !w.connected ==> r == Run(w, Failure(NotConnected))
    ensures w.connected ==> w.sent + [SetFrame("POS", RegisterMax), SetFrame("GTO", 1)] <= r.world.sent
    ensures r == Move(w, RegisterMax, None, None, block)
  {
    assert Settings(Clamp(RegisterMax), None, None) == [SetFrame("POS", RegisterMax), SetFrame("GTO", 1)];
    Move(w, RegisterMax, None, None, block)
  }

  /** `release`: a move to the open end with speed and force left as they
      are, so its first writes are POS 0 and Go To. */
  function Release(w: World, block: bool): (r: Run<int>)
    ensures Follows(w, r.world)
    ensures !w.connected ==> r == Run(w, Failure(NotConnected))
    ensures w.connected ==> w.sent + [SetFrame("POS", 0), SetFrame("GTO", 1)] <= r.world.sent
    ensures r == Move(w, 0, None, None, block)
  {
    assert Settings(Clamp(0), None, None) == [SetFrame("POS", 0), SetFrame("GTO", 1)];
    Move(w, 0, None, None, block)
  }

  /** `get_pos`: one GET POS. */
  function GetPos(w: World): (r: Run<int>)
    ensures Follows(w, r.world)
    ensures !w.connected ==> r == Run(w, Failure(NotConnected))
    ensures r.result.Success? ==> r.world.sent == w.sent + [GetFrame("POS")]
  {
    Get(w, "POS")
  }

  /** Against a device answering `v`, `get_pos` returns `v`. */
  lemma GetPosReads(w: World, v: int)
    requires w.connected && Replies(w.inbox, [v])
    ensures GetPos(w) == Run(Asked(w, "POS"), Success(v))
  {
    ParameterNames();
    GetNext(w, "POS", [v]);
  }

  // Status loops against a scripted device

  /** None of the first `n` readings stops the loop. */
  predicate NoneDone(u: Until, vals: seq<int>, n: nat)
    requires n <= |vals|
  {
    forall i | 0 <= i < n :: !Done(u, vals[i])
  }

  // One-step unfoldings of `Await`, one per branch of its body, used as
  // solver aids by the scripted proofs.
  lemma AwaitStops(w: World, name: string, u: Until, w1: World, v: int)
    requires Get(w, name) == Run(w1, Success(v)) && Done(u, v)
    ensures Await(w, name, u) == Run(w1, Success(()))
  {
  }

  lemma AwaitAgain(w: World, name: string, u: Until, w1: World, v: int)
    requires Get(w, name) == Run(w1, Success(v)) && !Done(u, v)
    ensures Await(w, name, u) == Await(w1, name, u)
  {
  }

  lemma AwaitFails(w: World, name: string, u: Until, w1: World, e: Error)
    requires Get(w, name) == Run(w1, Failure(e))
    ensures Await(w, name, u) == Run(w1, Failure(e))
  {
  }

  /** One reading that does not stop the loop: it goes on with the rest of
      the script. */
  lemma AwaitStep(w: World, name: string, u: Until, vals: seq<int>)
    requires w.connected && IsAscii(name) && Replies(w.inbox, vals) && |vals| > 0 && !Done(u, vals[0])
    ensures Await(w, name, u) == Await(Asked(w, name), name, u)
    ensures Replies(Asked(w, name).inbox, vals[1..])
  {
    GetNext(w, name, vals);
    AwaitAgain(w, name, u, Asked(w, name), vals[0]);
  }

  lemma NoneDoneTail(u: Until, vals: seq<int>, n: nat)
    requires 0 < n <= |vals| && NoneDone(u, vals, n)
    ensures !Done(u, vals[0]) && NoneDone(u, vals[1..], n - 1)
  {
    var t := vals[1..];
    forall i | 0 <= i < n - 1
      ensures !Done(u, t[i])
    {
      assert t[i] == vals[i + 1];
    }
  }

  /** Against a device whose readings `pre` do not stop the loop and whose
      next reading `x` does, the loop succeeds after exactly one GET per
      reading. */
  lemma {:induction false} AwaitScripted(w: World, name: string, u: Until, pre: seq<int>, x: int)
    requires w.connected && IsAscii(name) && NoneDone(u, pre, |pre|) && Done(u, x)
    requires Replies(w.inbox, pre + [x])
    ensures |pre| + 1 <= |w.inbox|
    ensures Await(w, name, u) == Run(Queried(w, name, |pre| + 1), Success(()))
    decreases |pre|
  {
    if |pre| == 0 {
      AwaitLast(w, name, u, pre + [x]);
    } else {
      var t := pre[1..];
      ScriptedStep(w, name, u, pre, x);
      AwaitScripted(Asked(w, name), name, u, t, x);
      assert |t| + 1 == |pre|;
      QueriedChain(w, name, |pre|, Await(w, name, u), Await(Asked(w, name), name, u));
    }
  }

  lemma QueriedChain(w: World, name: string, n: nat, a: Run<()>, b: Run<()>)
    requires 0 < |w.inbox| && n <= |w.inbox| - 1
    requires a == b && b == Run(Queried(Asked(w, name), name, n), Success(()))
    ensures n + 1 <= |w.inbox| && a == Run(Queried(w, name, n + 1), Success(()))
  {
    QueriedMore(w, name, n);
  }

  lemma AwaitLast(w: World, name: string, u: Until, vals: seq<int>)
    requires w.connected && IsAscii(name) && Replies(w.inbox, vals) && |vals| > 0 && Done(u, vals[0])
    ensures 1 <= |w.inbox|
    ensures Await(w, name, u) == Run(Queried(w, name, 1), Success(()))
  {
    GetNext(w, name, vals);
    QueriedOnce(w, name);
    AwaitStops(w, name, u, Asked(w, name), vals[0]);
  }

  lemma ScriptedStep(w: World, name: string, u: Until, pre: seq<int>, x: int)
    requires w.connected && IsAscii(name) && 0 < |pre| && NoneDone(u, pre, |pre|)
    requires Replies(w.inbox, pre + [x])
    ensures 0 < |w.inbox|
    ensures Await(w, name, u) == Await(Asked(w, name), name, u)
    ensures NoneDone(u, pre[1..], |pre[1..]|) && Replies(Asked(w, name).inbox, pre[1..] + [x])
  {
    NoneDoneTail(u, pre, |pre|);
    assert (pre + [x])[1..] == pre[1..] + [x];
    AwaitStep(w, name, u, pre + [x]);
  }

  /** What a status loop may have done once it has consumed the first `n`
      of the readings `vals`: stopped at the first reading that is `Done`,
      or timed out reading with none of them `Done`. */
  predicate UntilOutcome(u: Until, vals: seq<int>, n: int, r: Result<()>) {
    && 0 <= n <= |vals|
    && (r.Success? ==> 0 < n && NoneDone(u, vals, n - 1) && Done(u, vals[n - 1]))
    && (r.Failure? ==> r.error == ReadTimeout && n == |vals| && NoneDone(u, vals, n))
  }

  predicate UntilOk(before: nat, r: Run<()>, u: Until, vals: seq<int>) {
    UntilOutcome(u, vals, before - |r.world.inbox|, r.result)
  }

  lemma UntilShift(u: Until, vals: seq<int>, a: nat, b: nat, r: Run<()>)
    requires a == b + 1 && 0 < |vals| && !Done(u, vals[0])
    requires UntilOk(b, r, u, vals[1..])
    ensures UntilOk(a, r, u, vals)
  {
    var n := a - |r.world.inbox|;
    var t := vals[1..];
    assert 0 <= n - 1 <= |t|;
    var m := if r.result.Success? then n - 1 else n;
    forall i | 0 <= i < m
      ensures !Done(u, vals[i])
    {
      if i > 0 {
        assert t[i - 1] == vals[i];
      }
    }
    if r.result.Success? {
      assert t[n - 2] == vals[n - 1];
    }
  }

  lemma UntilSilent(w: World, name: string, u: Until, vals: seq<int>)
    requires w.connected && IsAscii(name) && |vals| == |w.inbox| == 0
    ensures UntilOk(|w.inbox|, Await(w, name, u), u, vals)
  {
    var w1 := w.(sent := w.sent + [GetFrame(name)]);
    GetUnanswered(w, name);
    AwaitFails(w, name, u, w1, ReadTimeout);
  }

  lemma UntilStops(w: World, name: string, u: Until, vals: seq<int>)
    requires w.connected && IsAscii(name) && |vals| == |w.inbox| > 0 && Replies(w.inbox, vals)
    requires Done(u, vals[0])
    ensures UntilOk(|w.inbox|, Await(w, name, u), u, vals)
  {
    GetNext(w, name, vals);
    AwaitStops(w, name, u, Asked(w, name), vals[0]);
    StopsOutcome(u, vals, |w.inbox|, Await(w, name, u));
  }

  lemma StopsOutcome(u: Until, vals: seq<int>, before: nat, r: Run<()>)
    requires |vals| == before > 0 && |r.world.inbox| == before - 1
    requires Done(u, vals[0]) && r.result == Success(())
    ensures UntilOk(before, r, u, vals)
  {
  }

  /** Whatever values the device reports, each in a well-formed reply that
      arrives in one recv, a status loop ends as
      `UntilOutcome` says: it succeeds exactly when some reading is `Done`,
      right after the first such reading, and otherwise times out reading. */
  lemma {:induction false} AwaitExit(w: World, name: string, u: Until, vals: seq<int>)
    requires w.connected && IsAscii(name) && |vals| == |w.inbox| && Replies(w.inbox, vals)
    ensures UntilOk(|w.inbox|, Await(w, name, u), u, vals)
    decreases |w.inbox|
  {
    if |w.inbox| == 0 {
      UntilSilent(w, name, u, vals);
    } else if Done(u, vals[0]) {
      UntilStops(w, name, u, vals);
    } else {
      var w1 := Asked(w, name);
      AwaitStep(w, name, u, vals);
      AwaitExit(w1, name, u, vals[1..]);
      UntilShift(u, vals, |w.inbox|, |w1.inbox|, Await(w1, name, u));
    }
  }

  // Moves against a scripted device

  lemma WriteRegister(w: World, name: string, v: int)
    requires w.connected && IsAscii(name)
    ensures Set(w, name, v) == Run(w.(sent := w.sent + [SetFrame(name, v)]), Success(()))
  {
  }

  lemma ConfigureSends(w: World, name: string, v: Option<int>)
    requires w.connected && IsAscii(name)
    ensures Configure(w, name, v) == Run(w.(sent := w.sent + Setting(name, v)), Success(()))
  {
    if v.Some? {
      WriteRegister(w, name, Clamp(v.value));
    } else {
      assert w.sent + [] == w.sent;
    }
  }

  /** On a live connection the preparation of a move always succeeds and
      sends exactly the `Settings` frames, in order. */
  lemma PrepareSends(w: World, p: int, speed: Option<int>, force: Option<int>)
    requires w.connected
    ensures Prepare(w, p, speed, force) == Run(w.(sent := w.sent + Settings(p, speed, force)), Success(()))
  {
    ParameterNames();
    var w1 := w.(sent := w.sent + Setting("SPE", speed));
    var w2 := w1.(sent := w1.sent + Setting("FOR", force));
    var w3 := w2.(sent := w2.sent + [SetFrame("POS", p)]);
    ConfigureSends(w, "SPE", speed);
    ConfigureSends(w1, "FOR", force);
    WriteRegister(w2, "POS", p);
    WriteRegister(w3, "GTO", 1);
    SettingsAppend(w.sent, p, speed, force);
  }

  lemma SettingsAppend(sent: seq<string>, p: int, speed: Option<int>, force: Option<int>)
    ensures sent + Setting("SPE", speed) + Setting("FOR", force) + [SetFrame("POS", p)] + [SetFrame("GTO", 1)]
         == sent + Settings(p, speed, force)
  {
  }

  /** The commands the device reads from the settings of a move. */
  function SettingCommands(p: int, speed: Option<int>, force: Option<int>): seq<Command> {
    (if speed.Some? then [SetCmd("SPE", Clamp(speed.value))] else [])
    + (if force.Some? then [SetCmd("FOR", Clamp(force.value))] else [])
    + [SetCmd("POS", p), SetCmd("GTO", 1)]
  }

  lemma UpperNames()
    ensures Upper("SPE") == "SPE" && Upper("FOR") == "FOR" && Upper("POS") == "POS" && Upper("GTO") == "GTO"
  {
    assert Upper("SPE") == ['S', 'P', 'E'];
    assert Upper("FOR") == ['F', 'O', 'R'];
    assert Upper("POS") == ['P', 'O', 'S'];
    assert Upper("GTO") == ['G', 'T', 'O'];
  }

  /** The device reads the settings frames of a move as SETs of speed,
      force (when given), the target position and Go To, in that order. */
  lemma SettingsParse(p: int, speed: Option<int>, force: Option<int>)
    ensures var fs := Settings(p, speed, force);
      var cs := SettingCommands(p, speed, force);
      |fs| == |cs| && forall i | 0 <= i < |fs| :: ParseFrame(fs[i]) == Some(cs[i])
  {
    ParameterNames();
    UpperNames();
    var fs := Settings(p, speed, force);
    var cs := SettingCommands(p, speed, force);
    forall i | 0 <= i < |fs|
      ensures ParseFrame(fs[i]) == Some(cs[i])
    {
      var j := (if speed.Some? then 1 else 0) + (if force.Some? then 1 else 0);
      if i < j && i == 0 && speed.Some? {
        SetFrameParses("SPE", Clamp(speed.value));
      } else if i < j {
        SetFrameParses("FOR", Clamp(force.value));
      } else if i == j {
        SetFrameParses("POS", p);
      } else {
        SetFrameParses("GTO", 1);
      }
    }
  }

  /** Every value a move writes is a register value, whatever the caller
      passed as position, speed or force: the device reads each settings
      frame as a SET of a value in 0..255. */
  lemma MoveClampsInputs(position: int, speed: Option<int>, force: Option<int>)
    ensures var fs := Settings(Clamp(position), speed, force);
      forall i | 0 <= i < |fs| :: && ParseFrame(fs[i]).Some? && ParseFrame(fs[i]).value.SetCmd?
                                   && 0 <= ParseFrame(fs[i]).value.value <= RegisterMax
  {
    var fs := Settings(Clamp(position), speed, force);
    var cs := SettingCommands(Clamp(position), speed, force);
    SettingsParse(Clamp(position), speed, force);
    CommandsInRange(Clamp(position), speed, force);
    forall i | 0 <= i < |fs|
      ensures ParseFrame(fs[i]) == Some(cs[i]) && cs[i].SetCmd? && 0 <= cs[i].value <= RegisterMax
    {
    }
  }

  lemma CommandsInRange(p: int, speed: Option<int>, force: Option<int>)
    requires 0 <= p <= RegisterMax
    ensures var cs := SettingCommands(p, speed, force);
      forall i | 0 <= i < |cs| :: cs[i].SetCmd? && 0 <= cs[i].value <= RegisterMax
  {
    var a := if speed.Some? then [SetCmd("SPE", Clamp(speed.value))] else [];
    var b := if force.Some? then [SetCmd("FOR", Clamp(force.value))] else [];
    var c := [SetCmd("POS", p), SetCmd("GTO", 1)];
    var cs := SettingCommands(p, speed, force);
    assert cs == a + b + c;
    forall i | 0 <= i < |cs|
      ensures cs[i].SetCmd? && 0 <= cs[i].value <= RegisterMax
    {
      if i < |a| {
        assert cs[i] == a[i];
      } else if i < |a| + |b| {
        assert cs[i] == b[i - |a|];
      } else {
        assert cs[i] == c[i - |a| - |b|];
      }
    }
  }

  lemma MoveChain(w: World, position: int, speed: Option<int>, force: Option<int>, block: bool,
                  w1: World, w2: World, w3: World)
    requires Prepare(w, Clamp(position), speed, force) == Run(w1, Success(()))
    requires Await(w1, "PRE", Equals(Clamp(position))) == Run(w2, Success(()))
    requires block ==> Await(w2, "OBJ", Leaves(Moving)) == Run(w3, Success(()))
    requires !block ==> w3 == w2
    ensures Move(w, position, speed, force, block) == Get(w3, "POS")
  {
    assert Move(w, position, speed, force, block) == Complete(w1, Clamp(position), block);
  }

  /** The world after a move that wrote the settings for target `p`, read
      PRE `m` times and OBJ `n` times, and read the position once. */
  function Moved(w: World, p: int, speed: Option<int>, force: Option<int>, m: nat, n: nat): World
    requires m + n + 1 <= |w.inbox|
  {
    w.(sent := w.sent + Settings(p, speed, force) + Queries("PRE", m) + Queries("OBJ", n) + [GetFrame("POS")],
       inbox := w.inbox[m + n + 1..])
  }

  lemma MovedWorld(w: World, p: int, speed: Option<int>, force: Option<int>, m: nat, n: nat)
    requires m + n + 1 <= |w.inbox|
    ensures var w1 := w.(sent := w.sent + Settings(p, speed, force));
      var w3 := Queried(Queried(w1, "PRE", m), "OBJ", n);
      Asked(w3, "POS") == Moved(w, p, speed, force, m, n)
  {
    assert w.inbox[m..][n..][1..] == w.inbox[m + n + 1..];
    assert Queries("OBJ", 0) == [];
  }

  /** A blocking move against a device that echoes the clamped target after
      the PRE readings `pre`, reports "moving" for the OBJ readings `moving`
      and then `settle`, and finally reports position `pos`: the move
      returns `pos`, after the settings, one PRE query per PRE reading, one
      OBJ query per OBJ reading and one POS query. */
  lemma MoveScripted(w: World, position: int, speed: Option<int>, force: Option<int>,
                     pre: seq<int>, moving: seq<int>, settle: int, pos: int)
    requires w.connected
    requires NoneDone(Equals(Clamp(position)), pre, |pre|)
    requires NoneDone(Leaves(Moving), moving, |moving|) && settle != Moving
    requires Replies(w.inbox, (pre + [Clamp(position)]) + ((moving + [settle]) + [pos]))
    ensures |pre| + |moving| + 3 <= |w.inbox|
    ensures Move(w, position, speed, force, true)
         == Run(Moved(w, Clamp(position), speed, force, |pre| + 1, |moving| + 1), Success(pos))
  {
    ParameterNames();
    var p := Clamp(position);
    PrepareSends(w, p, speed, force);
    var w1 := w.(sent := w.sent + Settings(p, speed, force));
    RepliesSplit(w1.inbox, pre + [p], (moving + [settle]) + [pos]);
    AwaitScripted(w1, "PRE", Equals(p), pre, p);
    var w2 := Queried(w1, "PRE", |pre| + 1);
    RepliesSplit(w2.inbox, moving + [settle], [pos]);
    AwaitScripted(w2, "OBJ", Leaves(Moving), moving, settle);
    var w3 := Queried(w2, "OBJ", |moving| + 1);
    GetNext(w3, "POS", [pos]);
    MoveChain(w, position, speed, force, true, w1, w2, w3);
    MovedWorld(w, p, speed, force, |pre| + 1, |moving| + 1);
  }

  /** A move with `block` false never queries OBJ: after PRE echoes the
      clamped target it reads the position at once. */
  lemma MoveNoWait(w: World, position: int, speed: Option<int>, force: Option<int>, pre: seq<int>, pos: int)
    requires w.connected
    requires NoneDone(Equals(Clamp(position)), pre, |pre|)
    requires Replies(w.inbox, (pre + [Clamp(position)]) + [pos])
    ensures |pre| + 2 <= |w.inbox|
    ensures Move(w, position, speed, force, false)
         == Run(Moved(w, Clamp(position), speed, force, |pre| + 1, 0), Success(pos))
  {
    ParameterNames();
    var p := Clamp(position);
    PrepareSends(w, p, speed, force);
    var w1 := w.(sent := w.sent + Settings(p, speed, force));
    RepliesSplit(w1.inbox, pre + [p], [pos]);
    AwaitScripted(w1, "PRE", Equals(p), pre, p);
    var w2 := Queried(w1, "PRE", |pre| + 1);
    assert Queried(w2, "OBJ", 0) == w2;
    GetNext(w2, "POS", [pos]);
    MoveChain(w, position, speed, force, false, w1, w2, w2);
    MovedWorld(w, p, speed, force, |pre| + 1, 0);
  }

}

=== FILE: numerals.dfy ===
/**
 Decimal integers on the wire: how an `int` is formatted into a SET frame
 (`str(int)`, a leading minus sign for negatives) and how the value token
 of a GET response is read back (`int(token)`: an optional sign followed by
 decimal digits, leading zeros allowed).
 */
module Numerals {
  import opened Results
  import opened Ascii

  predicate IsDigit(c: char) {
    '0' <= c <= '9'
  }

  predicate AllDigits(s: string) {
    forall i | 0 <= i < |s| :: IsDigit(s[i])
  }

  function DigitChar(d: int): (c: char)
    requires 0 <= d < 10
    ensures IsDigit(c) && c as int - '0' as int == d
  {
    ('0' as int + d) as char
  }

  /** The digits of a natural number, most significant first, without
      leading zeros. */
  function Digits(n: nat): (s: string)
    ensures |s| > 0 && AllDigits(s)
    ensures s[0] == '0' <==> n == 0
    ensures |s| > 1 ==> s[0] != '0'
    decreases n
  {
    if n < 10 then [DigitChar(n)]
    else
      var s := Digits(n / 10) + [DigitChar(n % 10)];
      assert s[0] == Digits(n / 10)[0];
      s
  }

  /** `str(n)` for a Python int. */
  function Decimal(n: int): (s: string)
    ensures |s| > 0
    ensures s[0] == '-' <==> n < 0
    ensures AllDigits(if n < 0 then s[1..] else s)
    ensures n < 0 ==> |s| > 1
    ensures n >= 0 && |s| > 1 ==> s[0] != '0'
    ensures n < 0 ==> s[1] != '0'
  {
    if n < 0 then
      var d := Digits(-n);
      assert ("-" + d)[1..] == d;
      "-" + d
    else Digits(n)
  }

  /** A formatted integer is a single ASCII word, so it survives splitting. */
  lemma DecimalIsAsciiWord(n: int)
    ensures IsWord(Decimal(n)) && IsAscii(Decimal(n))
    ensures '\n' !in Decimal(n)
  {
    var s := Decimal(n);
    var body := if n < 0 then s[1..] else s;
    assert forall i | 0 <= i < |s| :: s[i] == '-' || IsDigit(s[i]) by {
      forall i | 0 <= i < |s|
        ensures s[i] == '-' || IsDigit(s[i])
      {
        if n < 0 && i > 0 {
          assert s[i] == body[i - 1];
        }
      }
    }
  }

  /** The value of a digit string, read left to right. */
  function DigitsValue(s: string): nat
    requires AllDigits(s)
    decreases |s|
  {
    if |s| == 0 then 0
    else DigitsValue(s[..|s| - 1]) * 10 + (s[|s| - 1] as int - '0' as int)
  }

  /** What `int()` accepts from a whitespace-free token. */
  predicate IsIntLiteral(t: string) {
    || (|t| > 0 && AllDigits(t))
    || (|t| > 1 && (t[0] == '+' || t[0] == '-') && AllDigits(t[1..]))
  }

  /** `int(token)`: None where Python raises ValueError. */
  function ParseInt(t: string): (r: Option<int>)
    ensures r.Some? <==> IsIntLiteral(t)
    ensures r.Some? && r.value < 0 ==> t[0] == '-'
  {
    if |t| > 1 && (t[0] == '+' || t[0] == '-') && AllDigits(t[1..]) then
      var v: int := DigitsValue(t[1..]);
      Some(if t[0] == '-' then -v else v)
    else if |t| > 0 && AllDigits(t) then Some(DigitsValue(t))
    else None
  }

  lemma {:induction false} DigitsValueOfDigits(n: nat)
    ensures DigitsValue(Digits(n)) == n
    decreases n
  {
    var s := Digits(n);
    if n >= 10 {
      assert s[..|s| - 1] == Digits(n / 10);
      DigitsValueOfDigits(n / 10);
    }
  }

  /** Formatting and parsing are inverse: every integer the client sends
      is read back as the same integer. */
  lemma ParseDecimal(n: int)
    ensures ParseInt(Decimal(n)) == Some(n)
  {
    if n < 0 {
      DigitsValueOfDigits(-n);
      assert Decimal(n)[1..] == Digits(-n);
    } else {
      DigitsValueOfDigits(n);
    }
  }

  /** Formatting is injective: distinct values give distinct frames. */
  lemma DecimalInjective(m: int, n: int)
    requires Decimal(m) == Decimal(n)
    ensures m == n
  {
    ParseDecimal(m);
    ParseDecimal(n);
  }
}

=== FILE: protocol.dfy ===
/**
 The two protocol primitives, `SET` and `GET`, over the transport, and the
 scripted device the controller lemmas are stated against: a recv script in
 which each result carries one complete reply line.
 */
module Protocol {
  import opened Results
  import opened Ascii
  import opened Numerals
  import opened Frames
  import opened Transport

  /** `SET`: sends one SET frame; the protocol reads no reply to it. */
  function Set(w: World, name: string, val: int): (r: Run<()>)
    ensures Follows(w, r.world) && r.world.inbox == w.inbox
    ensures r.result.Success? <==> w.connected && IsAscii(name)
    ensures r.result.Success? ==> r.world.sent == w.sent + [SetFrame(name, val)]
    ensures r.result.Failure? ==> r.world == w
    ensures !w.connected ==> r.result == Failure(NotConnected)
  {
    FramesAscii(name, val);
    SendCommand(w, SetFrame(name, val))
  }

  /** `GET`: sends one GET frame, reads one line and returns the integer in
      its second token. */
  function Get(w: World, name: string): (r: Run<int>)
    ensures Follows(w, r.world)
    ensures r.world.sent == if w.connected && IsAscii(name) then w.sent + [GetFrame(name)] else w.sent
    ensures r.result.Success? ==> |r.world.inbox| < |w.inbox|
    ensures r.result.Success? ==> r.world.sent == w.sent + [GetFrame(name)]
    ensures !w.connected ==> r == Run(w, Failure(NotConnected))
  {
    FramesAscii(name, 0);
    var s := SendCommand(w, GetFrame(name));
    if s.result.Failure? then Run(s.world, Failure(s.result.error))
    else
      var l := ReadResponse(s.world);
      if l.result.Failure? then Run(l.world, Failure(l.result.error))
      else Run(l.world, ParseReply(l.result.value))
  }

  /** A GET answered by a single recv result holding one line: the result is
      that line's reply value (or the reply error), exactly one recv result
      is consumed, and the one GET frame is the only frame sent. */
  lemma GetReadsLine(w: World, name: string, line: string, rest: seq<Recv>)
    requires w.connected && IsAscii(name)
    requires IsAscii(line) && '\n' !in line
    requires w.inbox == [Data(Encode(line + "\n"))] + rest
    ensures Get(w, name) == Run(w.(sent := w.sent + [GetFrame(name)], inbox := rest), ParseReply(Strip(line)))
  {
    FramesAscii(name, 0);
    EncodedLine(line);
    var s := w.(sent := w.sent + [GetFrame(name)]);
    assert SendCommand(w, GetFrame(name)) == Run(s, Success(()));
    ReadOneChunk(s);
    assert s.inbox[1..] == rest;
  }

  /** A recv result that, read on its own, completes one reply line whose
      value is `v`. */
  predicate Answers(e: Recv, v: int) {
    && e.Data? && |e.bytes| > 0 && Newline in e.bytes
    && var l := Line(e.bytes[..FirstNewline(e.bytes)]);
       l.Success? && ParseReply(l.value) == Success(v)
  }

  /** The device's next recv results answer, in order, with `vals`. */
  predicate Replies(inbox: seq<Recv>, vals: seq<int>) {
    |vals| <= |inbox| && forall i {:trigger Answers(inbox[i], vals[i])} | 0 <= i < |vals| :: Answers(inbox[i], vals[i])
  }

  lemma RepliesDrop(inbox: seq<Recv>, vals: seq<int>, k: nat)
    requires Replies(inbox, vals) && k <= |vals|
    ensures Replies(inbox[k..], vals[k..])
  {
    forall i | 0 <= i < |vals| - k
      ensures Answers(inbox[k..][i], vals[k..][i])
    {
      assert inbox[k..][i] == inbox[k + i];
      assert vals[k..][i] == vals[k + i];
    }
  }

  /** The device's usual answer `<TAG> <value>\n`, sent in one piece. */
  function ReplyChunk(tag: string, v: int): Recv
    requires IsAscii(tag)
  {
    DecimalIsAsciiWord(v);
    AsciiAppend(tag, " ");
    AsciiAppend(tag + " ", Decimal(v));
    AsciiAppend(tag + " " + Decimal(v), "\n");
    Data(Encode(tag + " " + Decimal(v) + "\n"))
  }

  /** The usual answer carries its value: GET of it returns `v`. */
  lemma ReplyChunkAnswers(tag: string, v: int)
    requires IsWord(tag) && IsAscii(tag)
    ensures Answers(ReplyChunk(tag, v), v)
  {
    var line := tag + " " + Decimal(v);
    ReplyLineValue(tag, v);
    EncodedLine(line);
    assert ReplyChunk(tag, v) == Data(Encode(line + "\n"));
  }

  lemma ReplyLineValue(tag: string, v: int)
    requires IsWord(tag) && IsAscii(tag)
    ensures var line := tag + " " + Decimal(v);
      IsAscii(line) && '\n' !in line && ParseReply(Strip(line)) == Success(v)
  {
    var d := Decimal(v);
    DecimalIsAsciiWord(v);
    var line := tag + " " + d;
    AsciiAppend(tag, " ");
    AsciiAppend(tag + " ", d);
    NoSpaceNoNewline(tag);
    assert line[0] == tag[0];
    assert line[|line| - 1] == d[|d| - 1];
    StripClean(line);
    assert [tag, d] + [] == [tag, d];
    assert [tag, d][1..] == [d];
    assert line == Join([tag, d] + []);
    ReplyValue(tag, v, []);
  }

  /** GET against a device that answers `v`: one GET frame, one recv result
      consumed, result `v`. */
  lemma GetAnswered(w: World, name: string, v: int)
    requires w.connected && IsAscii(name)
    requires |w.inbox| > 0 && Answers(w.inbox[0], v)
    ensures Get(w, name) == Run(w.(sent := w.sent + [GetFrame(name)], inbox := w.inbox[1..]), Success(v))
  {
    FramesAscii(name, 0);
    var s := w.(sent := w.sent + [GetFrame(name)]);
    assert SendCommand(w, GetFrame(name)) == Run(s, Success(()));
    ReadOneChunk(s);
  }

  /** The world after a GET of `name` answered by the next recv result. */
  function Asked(w: World, name: string): World
    requires |w.inbox| > 0
  {
    w.(sent := w.sent + [GetFrame(name)], inbox := w.inbox[1..])
  }

  /** `n` GET frames of the same parameter, as a polling loop sends them. */
  function Queries(name: string, n: nat): seq<string> {
    if n == 0 then [] else [GetFrame(name)] + Queries(name, n - 1)
  }

  /** The world after `n` answered GETs of `name`. */
  function Queried(w: World, name: string, n: nat): World
    requires n <= |w.inbox|
  {
    w.(sent := w.sent + Queries(name, n), inbox := w.inbox[n..])
  }

  lemma QueriedOnce(w: World, name: string)
    requires |w.inbox| > 0
    ensures Asked(w, name) == Queried(w, name, 1)
  {
    assert Queries(name, 1) == [GetFrame(name)];
  }

  lemma QueriedMore(w: World, name: string, n: nat)
    requires |w.inbox| > n
    ensures Queried(Asked(w, name), name, n) == Queried(w, name, n + 1)
  {
    assert w.inbox[1..][n..] == w.inbox[n + 1..];
    assert w.sent + [GetFrame(name)] + Queries(name, n) == w.sent + Queries(name, n + 1);
  }

  /** GET against a scripted device: the first scripted value is the result
      and the rest of the script is left for what follows. */
  lemma GetNext(w: World, name: string, vals: seq<int>)
    requires w.connected && IsAscii(name)
    requires Replies(w.inbox, vals) && |vals| > 0
    ensures Get(w, name) == Run(Asked(w, name), Success(vals[0]))
    ensures Replies(w.inbox[1..], vals[1..])
  {
    assert Answers(w.inbox[0], vals[0]);
    GetAnswered(w, name, vals[0]);
    RepliesDrop(w.inbox, vals, 1);
  }

  /** GET against a device that sends nothing more: the frame goes out and
      the read times out. */
  lemma GetUnanswered(w: World, name: string)
    requires w.connected && IsAscii(name) && |w.inbox| == 0
    ensures Get(w, name) == Run(w.(sent := w.sent + [GetFrame(name)]), Failure(ReadTimeout))
  {
    FramesAscii(name, 0);
  }

  /** The parameter names the controllers use are plain ASCII words. */
  lemma ParameterNames()
    ensures IsWord("ACT") && IsAscii("ACT") && IsWord("STA") && IsAscii("STA")
    ensures IsWord("GTO") && IsAscii("GTO") && IsWord("POS") && IsAscii("POS")
    ensures IsWord("PRE") && IsAscii("PRE") && IsWord("OBJ") && IsAscii("OBJ")
    ensures IsWord("SPE") && IsAscii("SPE") && IsWord("FOR") && IsAscii("FOR")
  {
  }

  /** A script answering `a + b` answers `a` first and then `b`. */
  lemma RepliesSplit(inbox: seq<Recv>, a: seq<int>, b: seq<int>)
    requires Replies(inbox, a + b)
    ensures Replies(inbox, a)
    ensures Replies(inbox[|a|..], b)
  {
    var ab := a + b;
    assert forall i | 0 <= i < |a| :: ab[i] == a[i];
    RepliesDrop(inbox, ab, |a|);
    assert ab[|a|..] == b;
  }
}

=== FILE: results.dfy ===
/**
 Failure-carrying values shared by every layer of the gripper client model.
 Each `Error` constructor stands for one exception the Python client raises
 (or lets propagate); an operation that raises keeps the side effects it
 already had, so operations return their new state together with a `Result`.
 */
module Results {

  datatype Option<+T> = None | Some(value: T)

  datatype Error =
    | NotConnected        // ConnectionError: send or receive without a socket
    | ConnectFailed       // ConnectionError: connection refused or connect timed out
    | ConnectOsError      // OSError: any other failure of the socket connect call
    | ConnectionLost      // ConnectionError: a zero-length recv before a newline
    | ReadTimeout         // TimeoutError: no bytes arrived within the socket timeout
    | NonAsciiCommand     // UnicodeEncodeError while encoding a command frame
    | NonAsciiReply       // UnicodeDecodeError while decoding a response line
    | MalformedReply      // ValueError: a GET response with fewer than two tokens
    | NotAnInteger        // ValueError: the second token is not an integer literal
    | ActivationTimeout   // TimeoutError: STA did not read 3 within the deadline

  datatype Result<+T> = Success(value: T) | Failure(error: Error)
}

=== FILE: startup.dfy ===
/**
 Construction of the client. With auto-initialisation the constructor
 connects, writes POS 0 and activates; an error in any of the three steps
 is reported and the connection closed, so construction itself never
 fails. Without it, nothing is sent and the client starts Disconnected.
 */
module Startup {
  import opened Results
  import opened Frames
  import opened Transport
  import opened Protocol
  import opened Activation

  /** A client before its first operation: Disconnected, nothing sent, and
      the device's recv results still to come. */
  function Fresh(inbox: seq<Recv>): World {
    World(false, [], inbox)
  }

  /** `__init__`: the result is the error the constructor caught and
      reported, if any. */
  function Init(inbox: seq<Recv>, autoInit: bool, a: Attempt, now: nat -> int): (r: Run<()>)
    ensures !autoInit ==> r == Run(Fresh(inbox), Success(()))
    ensures autoInit ==> (r.world.connected <==> r.result.Success?)
    ensures autoInit && a != Accepted ==> r.world == Fresh(inbox) && r.result.Failure?
    ensures autoInit && a == Accepted ==> |r.world.sent| > 0 && r.world.sent[0] == SetFrame("POS", 0)
  {
    ParameterNames();
    var w := Fresh(inbox);
    if !autoInit then Run(w, Success(()))
    else
      var c := Connect(w, a);
      match c.result
      case Failure(e) => Run(Disconnect(c.world), Failure(e))
      case Success(_) =>
        var s := Set(c.world, "POS", 0);
        match s.result
        case Failure(e) => Run(Disconnect(s.world), Failure(e))
        case Success(_) =>
          var act := Activate(s.world, now);
          assert s.world.sent <= act.world.sent;
          Closing(act)
  }

  /** The `except` clause: a failed activation is reported and the
      connection closed; a successful one is kept. */
  function Closing(r: Run<()>): (c: Run<()>)
    ensures c.result == r.result
    ensures c.world.sent == r.world.sent && c.world.inbox == r.world.inbox
    ensures c.world.connected <==> r.world.connected && r.result.Success?
  {
    match r.result
    case Failure(e) => Run(Disconnect(r.world), Failure(e))
    case Success(_) => r
  }

  lemma InitChain(inbox: seq<Recv>, now: nat -> int)
    ensures Init(inbox, true, Accepted, now) == Closing(Activate(World(true, [SetFrame("POS", 0)], inbox), now))
  {
    ParameterNames();
    var w := World(true, [], inbox);
    assert Connect(Fresh(inbox), Accepted) == Run(w, Success(()));
    assert Set(w, "POS", 0) == Run(World(true, [SetFrame("POS", 0)], inbox), Success(()));
  }

  /** A device that is already active: the constructor sends POS 0 and one
      STA query, and ends Connected. */
  lemma InitActiveDevice(inbox: seq<Recv>, now: nat -> int, vals: seq<int>)
    requires Replies(inbox, vals) && |vals| > 0 && vals[0] == Active
    ensures Init(inbox, true, Accepted, now)
         == Run(World(true, [SetFrame("POS", 0), GetFrame("STA")], inbox[1..]), Success(()))
  {
    var w := World(true, [SetFrame("POS", 0)], inbox);
    InitChain(inbox, now);
    ActivateWhenActive(w, now, vals);
  }

  /** A device that needs activating and reaches status 3 in time: the
      constructor ends Connected, having sent POS 0 and then exactly the
      frames of the activation. */
  lemma InitActivates(inbox: seq<Recv>, now: nat -> int, s: int, rs: seq<ResetRound>, polls: seq<int>)
    requires s != Active && AllRetries(rs) && AllPassed(polls, now, 1, |polls|)
    requires Replies(inbox, ReactivationReadings(s, rs) + (polls + [Active]))
    ensures var w := World(true, [SetFrame("POS", 0)], inbox);
      |RetryReadings(rs)| + 3 + (|polls| + 1) <= |inbox|
      && Init(inbox, true, Accepted, now) == Run(Activated(w, rs, |polls| + 1), Success(()))
  {
    var w := World(true, [SetFrame("POS", 0)], inbox);
    InitChain(inbox, now);
    ActivateScripted(w, now, s, rs, polls);
  }

  /** A device that does not reach status 3 within the deadline: the
      constructor reports the activation timeout and closes the
      connection. */
  lemma InitTimesOut(inbox: seq<Recv>, now: nat -> int, s: int, rs: seq<ResetRound>, polls: seq<int>, late: int)
    requires s != Active && AllRetries(rs) && AllPassed(polls, now, 1, |polls|)
    requires late != Active && Overdue(now, 1 + |polls|)
    requires Replies(inbox, ReactivationReadings(s, rs) + (polls + [late]))
    ensures var w := World(true, [SetFrame("POS", 0)], inbox);
      |RetryReadings(rs)| + 3 + (|polls| + 1) <= |inbox|
      && Init(inbox, true, Accepted, now)
         == Run(Disconnect(Activated(w, rs, |polls| + 1)), Failure(ActivationTimeout))
  {
    var w := World(true, [SetFrame("POS", 0)], inbox);
    InitChain(inbox, now);
    ActivateTimesOut(w, now, s, rs, polls, late);
  }

  /** A refused or timed-out connection is reported, and the client is left
      Disconnected with nothing sent. */
  lemma InitUnreachable(inbox: seq<Recv>, a: Attempt, now: nat -> int)
    requires a == Refused || a == ConnectTimedOut
    ensures Init(inbox, true, a, now) == Run(Fresh(inbox), Failure(ConnectFailed))
  {
  }
}

=== FILE: transport.dfy ===
/**
 The client's socket, reduced to what the protocol logic can observe: a
 connection flag, the frames written so far, and the device's side as a
 script of `recv` results. An exhausted script reads as a socket timeout,
 which is what a silent device produces.
 */
module Transport {
  import opened Results
  import opened Ascii

  /** One outcome of `socket.recv(1024)`: the bytes returned (empty when the
      peer has closed the stream), or the socket timeout firing. */
  datatype Recv = Data(bytes: seq<Byte>) | TimedOut

  /** Whether a socket is held (the client is Connected), every frame sent
      so far, and the recv results the device has yet to deliver. */
  datatype World = World(connected: bool, sent: seq<string>, inbox: seq<Recv>)

  /** The state after an operation, and what it returned or raised. */
  datatype Run<+T> = Run(world: World, result: Result<T>)

  /** How the socket connect call ends. */
  datatype Attempt = Accepted | Refused | ConnectTimedOut | Unreachable

  /** `t` is what is left of `s` after dropping some prefix. */
  predicate IsSuffix<T(==)>(t: seq<T>, s: seq<T>) {
    |t| <= |s| && t == s[|s| - |t|..]
  }

  /** `w'` is a later state of the same session as `w`: the connection is
      unchanged, frames were only appended, and recv results were only
      consumed from the front. */
  predicate Follows(w: World, w': World) {
    && w'.connected == w.connected
    && w.sent <= w'.sent
    && IsSuffix(w'.inbox, w.inbox)
  }

  lemma FollowsTransitive(w0: World, w1: World, w2: World)
    requires Follows(w0, w1) && Follows(w1, w2)
    ensures Follows(w0, w2)
  {
    var n0, n1, n2 := |w0.inbox|, |w1.inbox|, |w2.inbox|;
    assert w2.inbox == w0.inbox[n0 - n1..][n1 - n2..];
    assert w0.inbox[n0 - n1..][n1 - n2..] == w0.inbox[n0 - n2..];
  }

  /** `connect`: a no-op on a live connection; otherwise the attempt decides.
      Every failure leaves the client Disconnected (see `ConnectAsWritten`
      for the source's handling of errors other than refusal and timeout). */
  function Connect(w: World, a: Attempt): (r: Run<()>)
    ensures r.world.sent == w.sent && r.world.inbox == w.inbox
    ensures w.connected ==> r == Run(w, Success(()))
    ensures r.result.Success? <==> r.world.connected
    ensures !w.connected ==> (r.result.Success? <==> a == Accepted)
    ensures !w.connected && (a == Refused || a == ConnectTimedOut) ==> r.result == Failure(ConnectFailed)
    ensures !w.connected && a == Unreachable ==> r.result == Failure(ConnectOsError)
  {
    if w.connected then Run(w, Success(()))
    else
      match a
      case Accepted => Run(w.(connected := true), Success(()))
      case Refused => Run(w, Failure(ConnectFailed))
      case ConnectTimedOut => Run(w, Failure(ConnectFailed))
      case Unreachable => Run(w, Failure(ConnectOsError))
  }

  /** `disconnect`: always ends Disconnected and never fails. */
  function Disconnect(w: World): (r: World)
    ensures !r.connected
    ensures r.sent == w.sent && r.inbox == w.inbox
  {
    w.(connected := false)
  }

  /** Calling `disconnect` again changes nothing, and `connect` twice in a
      row performs one handshake: the second call ignores its attempt. */
  lemma ConnectDisconnectIdempotent(w: World, a: Attempt, b: Attempt)
    ensures Disconnect(Disconnect(w)) == Disconnect(w)
    ensures var r := Connect(w, a); r.result.Success? ==> Connect(r.world, b) == Run(r.world, Success(()))
  {
  }

  /** `_send_command`: refuses without a connection, then ASCII-encodes the
      frame and writes all of it. */
  function SendCommand(w: World, cmd: string): (r: Run<()>)
    ensures r.world.connected == w.connected && r.world.inbox == w.inbox
    ensures r.result.Success? <==> w.connected && IsAscii(cmd)
    ensures r.result.Success? ==> r.world.sent == w.sent + [cmd]
    ensures !w.connected ==> r == Run(w, Failure(NotConnected))
    ensures r.result.Failure? ==> r.world == w
  {
    if !w.connected then Run(w, Failure(NotConnected))
    else if IsAscii(cmd) then Run(w.(sent := w.sent + [cmd]), Success(()))
    else Run(w, Failure(NonAsciiCommand))
  }

  /** The position of the first newline byte. */
  function FirstNewline(b: seq<Byte>): (k: nat)
    requires Newline in b
    ensures k < |b| && b[k] == Newline && Newline !in b[..k]
  {
    if b[0] == Newline then 0
    else
      var k := 1 + FirstNewline(b[1..]);
      assert b[..k] == [b[0]] + b[1..][..k - 1];
      k
  }

  lemma FirstNewlineAt(b: seq<Byte>, k: nat)
    requires k < |b| && b[k] == Newline && Newline !in b[..k]
    ensures FirstNewline(b) == k
  {
    var j := FirstNewline(b);
    assert forall i | 0 <= i < k :: b[..k][i] == b[i];
    assert forall i | 0 <= i < j :: b[..j][i] == b[i];
  }

  /** The text of a received line: decoded as ASCII, then stripped. */
  function Line(bs: seq<Byte>): Result<string> {
    match Decode(bs)
    case None => Failure(NonAsciiReply)
    case Some(s) => Success(Strip(s))
  }

  /** The loop of `_read_response`, with `buf` the bytes gathered so far:
      one recv per step until the buffer holds a newline. Whatever follows
      that newline is dropped. */
  function ReadLoop(buf: seq<Byte>, inbox: seq<Recv>): (r: (seq<Recv>, Result<string>))
    ensures IsSuffix(r.0, inbox)
    ensures r.1.Success? ==> |r.0| < |inbox|
    decreases |inbox|
  {
    if |inbox| == 0 then ([], Failure(ReadTimeout))
    else
      match inbox[0]
      case TimedOut => (inbox[1..], Failure(ReadTimeout))
      case Data(chunk) =>
        if |chunk| == 0 then (inbox[1..], Failure(ConnectionLost))
        else
          var b := buf + chunk;
          if Newline in b then (inbox[1..], Line(b[..FirstNewline(b)]))
          else
            var r := ReadLoop(b, inbox[1..]);
            assert inbox[1..][|inbox| - 1 - |r.0|..] == inbox[|inbox| - |r.0|..];
            r
  }

  /** `_read_response`: refuses without a connection, otherwise consumes recv
      results up to and including the one that completes a line. */
  function ReadResponse(w: World): (r: Run<string>)
    ensures Follows(w, r.world) && r.world.sent == w.sent
    ensures r.result.Success? ==> |r.world.inbox| < |w.inbox|
    ensures !w.connected ==> r == Run(w, Failure(NotConnected))
  {
    if !w.connected then Run(w, Failure(NotConnected))
    else
      var (rest, line) := ReadLoop([], w.inbox);
      Run(w.(inbox := rest), line)
  }

  /** Chunks as the recv script delivers them. */
  function Chunks(cs: seq<seq<Byte>>): (es: seq<Recv>)
    ensures |es| == |cs|
    ensures forall i | 0 <= i < |cs| :: es[i] == Data(cs[i])
  {
    seq(|cs|, i requires 0 <= i < |cs| => Data(cs[i]))
  }

  function Concat(cs: seq<seq<Byte>>): seq<Byte> {
    if |cs| == 0 then [] else cs[0] + Concat(cs[1..])
  }

  /** Non-empty chunks none of which completes a line. */
  predicate Partial(cs: seq<seq<Byte>>) {
    forall i | 0 <= i < |cs| :: |cs[i]| > 0 && Newline !in cs[i]
  }

  lemma {:induction false} ConcatPartial(cs: seq<seq<Byte>>)
    requires Partial(cs)
    ensures Newline !in Concat(cs)
    decreases |cs|
  {
    if |cs| > 0 {
      ConcatPartial(cs[1..]);
    }
  }

  /** Chunks without a newline only grow the buffer. */
  lemma {:induction false} ReadLoopChunks(buf: seq<Byte>, cs: seq<seq<Byte>>, tail: seq<Recv>)
    requires Newline !in buf && Partial(cs)
    ensures ReadLoop(buf, Chunks(cs) + tail) == ReadLoop(buf + Concat(cs), tail)
    decreases |cs|
  {
    if |cs| == 0 {
      assert Chunks(cs) + tail == tail;
      assert buf + Concat(cs) == buf;
    } else {
      var inbox := Chunks(cs) + tail;
      assert inbox[0] == Data(cs[0]);
      assert inbox[1..] == Chunks(cs[1..]) + tail;
      assert Newline !in buf + cs[0];
      ReadLoopChunks(buf + cs[0], cs[1..], tail);
      assert buf + cs[0] + Concat(cs[1..]) == buf + Concat(cs);
    }
  }

  /** A read returns the decoded, stripped text before the first newline of
      the concatenated chunks; the bytes after that newline (`post`) are
      discarded, and the next read starts with the following recv result. */
  lemma ReadLineSpec(w: World, cs: seq<seq<Byte>>, pre: seq<Byte>, post: seq<Byte>, rest: seq<Recv>)
    requires w.connected
    requires Partial(cs) && Newline !in pre
    requires w.inbox == Chunks(cs) + [Data(pre + [Newline] + post)] + rest
    ensures ReadResponse(w) == Run(w.(inbox := rest), Line(Concat(cs) + pre))
  {
    ConcatPartial(cs);
    var last := pre + [Newline] + post;
    assert w.inbox == Chunks(cs) + ([Data(last)] + rest);
    ReadLoopChunks([], cs, [Data(last)] + rest);
    assert [] + Concat(cs) == Concat(cs);
    LineEnd(Concat(cs), pre, post);
    assert ([Data(last)] + rest)[1..] == rest;
  }

  /** The buffer a read ends with holds its first newline right after the
      newline-free bytes that precede it. */
  lemma LineEnd(head: seq<Byte>, pre: seq<Byte>, post: seq<Byte>)
    requires Newline !in head && Newline !in pre
    ensures var b := head + (pre + [Newline] + post);
      FirstNewline(b) == |head| + |pre| && b[..FirstNewline(b)] == head + pre
  {
    var b := head + (pre + [Newline] + post);
    assert b == (head + pre) + [Newline] + post;
    var k := |head| + |pre|;
    assert b[..k] == head + pre;
    FirstNewlineAt(b, k);
  }

  /** A recv result that holds a newline completes the read on its own. */
  lemma ReadOneChunk(w: World)
    requires w.connected && |w.inbox| > 0 && w.inbox[0].Data?
    requires |w.inbox[0].bytes| > 0 && Newline in w.inbox[0].bytes
    ensures var c := w.inbox[0].bytes;
      ReadResponse(w) == Run(w.(inbox := w.inbox[1..]), Line(c[..FirstNewline(c)]))
  {
    var c := w.inbox[0].bytes;
    assert [] + c == c;
  }

  /** An ASCII line without newlines, encoded and terminated, reads back as
      the stripped line. */
  lemma EncodedLine(line: string)
    requires IsAscii(line) && '\n' !in line
    ensures IsAscii(line + "\n")
    ensures var bs := Encode(line + "\n");
      |bs| > 0 && Newline in bs && Line(bs[..FirstNewline(bs)]) == Success(Strip(line))
  {
    AsciiAppend(line, "\n");
    var bs := Encode(line + "\n");
    assert bs == Encode(line) + [Newline];
    assert Newline !in Encode(line);
    FirstNewlineAt(bs, |line|);
    assert bs[..|line|] == Encode(line);
    DecodeEncode(line);
  }

  /** A zero-length recv before any newline means the peer closed the
      stream: the read fails with a connection error. */
  lemma ReadLineLost(w: World, cs: seq<seq<Byte>>, rest: seq<Recv>)
    requires w.connected && Partial(cs)
    requires w.inbox == Chunks(cs) + [Data([])] + rest
    ensures ReadResponse(w) == Run(w.(inbox := rest), Failure(ConnectionLost))
  {
    assert w.inbox == Chunks(cs) + ([Data([])] + rest);
    ReadLoopChunks([], cs, [Data([])] + rest);
    assert ([Data([])] + rest)[1..] == rest;
  }

  /** A socket timeout before any newline fails the read with a timeout, as
      does a device that sends nothing more. */
  lemma ReadLineTimedOut(w: World, cs: seq<seq<Byte>>, rest: seq<Recv>)
    requires w.connected && Partial(cs)
    requires w.inbox == Chunks(cs) + [TimedOut] + rest || w.inbox == Chunks(cs)
    ensures ReadResponse(w).result == Failure(ReadTimeout)
  {
    if w.inbox == Chunks(cs) {
      assert w.inbox == Chunks(cs) + [];
      ReadLoopChunks([], cs, []);
    } else {
      assert w.inbox == Chunks(cs) + ([TimedOut] + rest);
      ReadLoopChunks([], cs, [TimedOut] + rest);
    }
  }
}
